=== FILE: README.md ===
# t3 core, modelled in Dafny

This project models the three pieces of logic in the `t3` command-line tool:

- **The configuration store.** `ConfigManager` in `t3/core/config.py` keeps a key/value map in memory and writes it to one JSON file on every change. The `config` sub-commands in `t3/commands/config.py` load that file, change it at most once, and exit.
- **The project-name check.** `is_valid_project_name` in `t3/core/utils.py` says whether a string can be a project name.
- **The project scaffolder.** `init project` in `t3/commands/init.py` picks a template by name and writes that template's directories and files under the working directory.

Modules, one per source component:

| module | file | models |
|---|---|---|
| `Wrappers` | `wrappers.dfy` | `Option` and `Outcome` (a value, or an I/O error raised) |
| `ExitStatus` | `exit_status.dfy` | the two exit statuses a command can end with |
| `ConfigStore` | `config_store.dfy` | `ConfigManager`, with the config file as a `FileState`: `Absent`, `Corrupt`, `Unloadable` or `Stored(map)` |
| `ConfigCommands` | `config_commands.dfy` | `config show/set/get/delete/reset`, each as a change of file state plus an exit status |
| `Utils` | `utils.dfy` | `is_valid_project_name` and the `str.strip()` it relies on |
| `FileTree` | `file_tree.dfy` | paths, a tree `map<Path, Node>`, `pathlib` joining, `mkdir(exist_ok=True)`, `write_text`, and one generic `Materialize` that applies a list of entries in order |
| `InitCommand` | `init_project.dfy` | the templates as declarative entry lists, the template dispatch, and `project` |

Host state is passed in as parameters:

- The home directory, the working directory and the filesystem tree are parameters.
- The answers to `Prompt.ask` and `Confirm.ask` are parameters.
- `writable` says whether the host lets the process write or remove the config file. When it does not, the Python code raises. The model returns `IoError`, or exit status 1 for a command, because Python exits with status 1 on an uncaught exception.

Facts about the code that a reader might not expect:

- `init project` never calls `is_valid_project_name` (`t3/commands/init.py:23-26`). Any name is accepted and joined onto the working directory. `InitCommand.InvalidNameAccepted` proves that `a:b` is refused by the check but initialised by the command.
- A name holding `/` makes a nested target. The target is created without `parents=True`, so a missing intermediate directory makes the command fail before it writes anything (`InitCommand.NestedNameWithoutParent`).
- `project` returns nothing. It does not return the set of created paths.
- `reset` deletes the file. It does not write an empty object.
- The loaders catch only `JSONDecodeError` and `OSError` raised inside their `try` (`t3/core/config.py:34-38`, `t3/commands/config.py:100-104`). Two errors escape. A file whose bytes are not text in the locale's encoding makes `json.load` raise `UnicodeDecodeError`. The `exists()` probe before the `try` (`t3/core/config.py:30`, `t3/commands/config.py:97`) re-raises, on Python 3.10 to 3.12, any `stat` error other than "not found", such as a directory without search permission or a component that is too long. The model calls such a file `Unloadable`. `ConfigManager()` then raises, and a command that loads the file exits with status 1.
- `Path.cwd() / name` is resolved by the operating system, so a name holding `..` can point outside the working directory (`InitCommand.ParentNameAsks`, `InitCommand.SiblingNameTarget`).

## Model

| member | source | states |
|---|---|---|
| ConfigStore.ResolvePath | t3/core/config.py:21-24 | The config path is the given path when it is a non-empty string. `None` and `""` both give `<home>/.t3/config.json`. The result is never empty. |
| ConfigStore.Open | t3/core/config.py:13-38 | Construction resolves the path, then loads that file once. It raises exactly when the loader raises on the file (`Unloadable`). Otherwise the in-memory map equals what the file loads as, and a missing or corrupt file gives the empty map. |
| ConfigStore.Load | t3/core/config.py:28-38 | A stored object loads as itself. An absent, unreadable or unparsable file loads as the empty map. Loading raises exactly on an `Unloadable` file: undecodable bytes, or an existence probe that fails outside the `try`. |
| ConfigStore.Save | t3/core/config.py:40-45 | Saving succeeds exactly when the host is writable. The saved file holds exactly the saved map, and loading it gives that map back (round trip). |
| ConfigStore.Get | t3/core/config.py:47-58 | Gives the stored value when the key is present, otherwise the default. It changes neither the map nor the file. |
| ConfigStore.Set | t3/core/config.py:60-69 | Afterwards `get(key)` returns the new value. Every other key keeps its presence and value. On success the file holds exactly the new map and reloads to it. On a failed save the map has already changed but the file has not. |
| ConfigStore.Delete | t3/core/config.py:71-85 | Returns true iff the key was present. A missing key changes nothing and writes nothing. A present key is removed and other keys are untouched. When that returns true, the file holds exactly the new map and reloads to it. A failed save raises and leaves the file. |
| ConfigStore.GetAll | t3/core/config.py:87-94 | Has exactly the stored keys, each with the value `get` returns. Being a value, the copy is independent of the store. |
| ConfigStore.Reset | t3/core/config.py:96-99 | The map becomes empty. The file ends absent whenever it was absent already or the host is writable. Otherwise the unlink raises and the file stays as it was. |
| ConfigStore.ApplyKeepsSynced | t3/core/config.py:60-99 | On a writable host, any single call keeps the file reloading to the in-memory map. |
| ConfigStore.RunKeepsSynced | t3/core/config.py:40-99 | Write-through: every session of calls on a writable host ends with the file reloading to exactly the in-memory map. That is a file holding the map, or, when the map is empty, a file that is absent (after `reset()`) or corrupt. The path never changes. |
| ConfigStore.ReopenAfterSession | t3/core/config.py:21-45 | A manager opened after a session on the same path sees the map that the session ended with. This holds even when the file was corrupt before the session. |
| ConfigStore.SetThenGet | t3/core/config.py:47-69 | `set(k, v)` followed by `get(k, d)` returns `v`. |
| ConfigStore.DeleteThenGet | t3/core/config.py:47-85 | After `delete(k)`, `get(k, d)` returns `d`. |
| ConfigStore.ResetThenReopen | t3/core/config.py:96-99 | After `reset()` on a writable host, the file is absent and a fresh load gives the empty map. |
| ConfigStore.CorruptFileLoadsEmpty | t3/core/config.py:34-38 | Opening a file that does not parse gives the empty map. |
| ConfigStore.UnloadableFileRaises | t3/core/config.py:26-38 | Opening a file the loader raises on makes the constructor raise. |
| ConfigCommands.SetCommand | t3/commands/config.py:40-50 | Exits 0 exactly when the file loads and the write is allowed. On success the file holds the loaded map with `key` bound to the string value. Every other loaded key is preserved. A refused write or an unloadable file exits 1 and leaves the file as it was. |
| ConfigCommands.GetCommand | t3/commands/config.py:53-64 | Exits 0 and shows the loaded value iff the file loads and holds the key. Otherwise it exits 1 and shows nothing. The file is never changed. |
| ConfigCommands.DeleteCommand | t3/commands/config.py:67-80 | A missing key or an unloadable file exits 1 with no write. Exits 0 iff the file loads, holds the key and the write is allowed, and then the file holds the loaded map minus the key. |
| ConfigCommands.ResetCommand | t3/commands/config.py:83-92 | Declining leaves the file and exits 0. Confirming removes the file, and an already-absent file is not an error. Exit 1 only when an existing file cannot be removed. |
| ConfigCommands.Show | t3/commands/config.py:17-37 | Raises iff the loader raises on the file. Gives the "No configuration found" notice iff the loaded map is empty. Otherwise it gives one row per key, each key exactly once with its value, and every key appears. |
| ConfigCommands.SetCommandMatchesManager | t3/commands/config.py:46-48 | `config set` leaves the same file as `ConfigManager.set` on a manager loaded from that file, and succeeds in the same cases. When constructing the manager raises, the command exits 1 and writes nothing. |
| ConfigCommands.GetCommandMatchesManager | t3/commands/config.py:58-64 | `config get` exits 0 iff the key is in the manager's `get_all()`, and then shows what `ConfigManager.get` returns. When constructing the manager raises, the command exits 1 and shows nothing. |
| ConfigCommands.DeleteCommandMatchesManager | t3/commands/config.py:72-80 | `config delete` leaves the same file as `ConfigManager.delete`. It exits 0 exactly when the manager returns true. When constructing the manager raises, the command exits 1 and writes nothing. |
| ConfigCommands.ResetCommandMatchesManager | t3/commands/config.py:88-90 | A confirmed `config reset` leaves the same file as `ConfigManager.reset`. It exits 0 exactly when that call does not raise. |
| ConfigCommands.SetOnCorruptFile | t3/commands/config.py:95-112 | `config set` on a corrupt file starts from the empty map and writes a file holding only the new key. |
| ConfigCommands.UnloadableFileRefused | t3/commands/config.py:95-104 | On a file the loader raises on, `set`, `get` and `delete` exit 1 and leave the file unchanged. |
| Utils.StripLeading | t3/core/utils.py:128 | Leading part of `str.strip()`: the result is a suffix of the input, everything removed is whitespace, and the result does not start with whitespace. |
| Utils.StripTrailing | t3/core/utils.py:128 | Trailing part of `str.strip()`: the result is a prefix of the input, everything removed is whitespace, and the result does not end with whitespace. |
| Utils.StripEmptyIffAllSpace | t3/core/utils.py:128 | `strip()` gives the empty string iff every character is whitespace. |
| Utils.IsValidProjectName | t3/core/utils.py:118-140 | A name is valid iff it has a non-whitespace character, has none of the nine forbidden characters (slash, less-than, greater-than, colon, double quote, vertical bar, question mark, asterisk, backslash), and has at most 255 characters. |
| Utils.EmptyNameInvalid | t3/core/utils.py:128-129 | The empty string is invalid. |
| Utils.BlankNameInvalid | t3/core/utils.py:128-129 | A name made only of whitespace is invalid. |
| Utils.InvalidCharRejected | t3/core/utils.py:131-134 | One forbidden character anywhere makes a name invalid. |
| Utils.TooLongNameInvalid | t3/core/utils.py:136-138 | A name longer than 255 characters is invalid. |
| Utils.LongestNameValid | t3/core/utils.py:136-140 | A name of 255 ordinary characters is valid. |
| Utils.PaddedNameValid | t3/core/utils.py:128-140 | Spaces around a valid name keep it valid. Only a wholly blank name is refused. |
| FileTree.Components | t3/commands/init.py:26 | Splitting a name at `/` gives components that are non-empty, not `.`, and free of `/`. A name without `/` is its own single component, except that `""` and `.` give none. |
| FileTree.Join | t3/commands/init.py:26 | `base / name`: the result has no empty, `.` or `..` component when the base has none or the name is absolute. A relative name without `..` appends its components to the base. |
| FileTree.PlainNameJoin | t3/commands/init.py:26 | Joining a name that has no `/` and is none of empty, `.` and `..` adds exactly that one component to the working directory. |
| FileTree.ParentNameJoin | t3/commands/init.py:26 | Joining `..` gives the parent of the base. The root is its own parent. |
| FileTree.MakeDir | t3/commands/init.py:34 | `mkdir(exist_ok=True)` succeeds iff the path is already a directory, or it is missing and its parent is a directory. On success the path is a directory. On failure nothing changes. Only that path can change. |
| FileTree.WriteText | t3/commands/init.py:38 | `write_text` succeeds iff the path is not a directory and either exists or has a directory as parent. On success the file holds exactly the content. Only that path can change. |
| FileTree.ApplyKeepsWellFormed | t3/commands/init.py:34-39 | Each primitive keeps every node inside an existing directory. |
| FileTree.Materialize | t3/commands/init.py:33-46 | Writing a layout in order, stopping at the first failure, changes no path outside the layout's paths. |
| FileTree.MaterializeKeepsWellFormed | t3/commands/init.py:33-46 | A complete or interrupted run leaves a real tree real. |
| FileTree.MaterializeOkIff | t3/commands/init.py:33-46 | On a real tree a run completes iff, for every step, its parent is or becomes a directory first and no node of the other kind sits at its path. |
| FileTree.MaterializeHolds | t3/commands/init.py:33-46 | After a completed run with distinct paths, every directory entry is a directory and every file entry holds exactly its content. |
| FileTree.AncestorExists | t3/commands/init.py:34 | In a real tree, every non-root prefix of an existing path exists. |
| InitCommand.ProjectName | t3/commands/init.py:23-24 | The `--name` option is used when it is given and non-empty. Otherwise the prompt's answer is used. |
| InitCommand.Target | t3/commands/init.py:23-26 | The target is the name joined onto the working directory. It stays resolved when the working directory is. A plain name gives exactly one new component below the working directory. |
| InitCommand.Readme | t3/commands/init.py:37 | `README.md` starts with `# ` followed by the name, and ends with a newline. |
| InitCommand.BasicLayout | t3/commands/init.py:113-126 | The basic entries name each path once, avoid the target, `README.md` and `.gitignore`, and create `src` before `src/main.py`. |
| InitCommand.PythonLayout | t3/commands/init.py:129-152 | The python layout is the basic layout followed by one more entry, and it keeps the same shape. |
| InitCommand.WebLayout | t3/commands/init.py:155-179 | The web entries name each path once, avoid the target, `README.md` and `.gitignore`, and create `public` before `public/index.html`. |
| InitCommand.TemplateLayout | t3/commands/init.py:41-46 | Whichever template is selected, its entries have the shape above. |
| InitCommand.Plan | t3/commands/init.py:26-46 | The command writes one entry per layout entry, and every one lies inside the target. |
| InitCommand.SelectTemplate | t3/commands/init.py:41-46 | `python` selects the python layout and `web` the web layout. Every other string, including unknown ones, selects the basic layout. |
| InitCommand.Project | t3/commands/init.py:14-46 | An existing target, without `--force` and with the question declined, exits 1 and leaves the tree unchanged. The exit status is 0 or 1. No path outside the plan (README, `.gitignore`, template paths) is touched. |
| InitCommand.ProjectLayoutShape | t3/commands/init.py:33-46 | Every template's full layout starts with the target, names each path once, and creates each parent before its children. |
| InitCommand.PlanStartsWithCommon | t3/commands/init.py:34-39 | Every run first creates the target, then writes README.md, then writes .gitignore. |
| InitCommand.ProjectOkIff | t3/commands/init.py:28-46 | On a real tree the command exits 0 iff it is not cancelled and every step of its plan can succeed. |
| InitCommand.ProjectOnFreshTarget | t3/commands/init.py:33-46 | On a missing target inside an existing directory, the command exits 0 for every template string. Afterwards the tree is the old tree plus exactly the plan's entries. |
| InitCommand.ExistingDirectoryReused | t3/commands/init.py:28-34 | An existing target directory is not an error. With `--force` or a confirmation, the command exits 0 unless a layout entry meets a node of the other kind. |
| InitCommand.ProjectWritesCommonFiles | t3/commands/init.py:34-39 | After a successful run the target is a directory and README.md is exactly `# <name>` followed by the description line. `.gitignore` is the fixed text, whatever the name or template. |
| InitCommand.MainPyGreets | t3/commands/init.py:119-125 | `src/main.py` contains `print("Hello from <name>!")`. |
| InitCommand.PyprojectDeclaresName | t3/commands/init.py:134-151 | `pyproject.toml` contains `name = "<name>"`. |
| InitCommand.IndexHtmlNamesProject | t3/commands/init.py:162-178 | `public/index.html` contains `<title><name></title>` and `Welcome to <name>`. |
| InitCommand.WebPlanAvoidsBasicPaths | t3/commands/init.py:155-179 | The web plan names none of `src/main.py`, `docs` and `tests`. |
| InitCommand.BasicProjectTree | t3/commands/init.py:113-126 | After a successful basic run, `src`, `docs` and `tests` are directories and `src/main.py` greets the project by name. |
| InitCommand.PythonProjectTree | t3/commands/init.py:129-152 | After a successful python run you get the basic layout, plus a `pyproject.toml` that declares the name. |
| InitCommand.WebProjectTree | t3/commands/init.py:155-179 | After a successful web run, `src`, `public` and `assets` are directories and `public/index.html` names the project. `src/main.py`, `docs` and `tests` are left exactly as they were. |
| InitCommand.InvalidNameAccepted | t3/commands/init.py:23-26 | A name the validity check refuses (`a:b`) is still initialised: the command never checks names. |
| InitCommand.NestedNameWithoutParent | t3/commands/init.py:26-34 | For the name `a/b` with no directory `a`, the command exits 1 and the tree is unchanged. |
| InitCommand.NestedNameWithParent | t3/commands/init.py:26-38 | For the name `a/b` with a directory `a`, the command exits 0 and writes `a/b/README.md`. |
| InitCommand.ParentNameAsks | t3/commands/init.py:26-31 | The name `..` targets the parent of the working directory. That directory exists, so without `--force` a declined question exits 1 and changes nothing. |
| InitCommand.SiblingNameTarget | t3/commands/init.py:26 | The name `../sib` targets `sib` beside the working directory. |

## Left out

- The `docker` command (`t3/commands/init.py:182-331`) is left out. It only runs external processes (`docker pull`, `pip install`) and serialises YAML.
- `t3/main.py`, `demo.py` and `dev.py` are left out. They are Typer wiring, help and status tables, and scripts that shell out.
- `format_size`, the `show_*` helpers, `exit_with_error` and `validate_path` in `t3/core/utils.py` are left out. They are float formatting, console rendering, `sys.exit`, and a bare existence probe.
- Console output (Rich tables, coloured messages, `str(value)`) is not modelled. Only the facts a message reports are kept.
- The file is modelled as `FileState`, not as JSON text. A file holding valid JSON that is not an object is outside the model.
- Stored values are JSON strings, integers, booleans and null. Floats and nested JSON values are left out.
- Cross-process races on the config file (last writer wins) are not modelled.
- A write that fails after the file has been opened for writing, such as a full disk, is not modelled. Such a write would leave a truncated file.
- ConfigStore.ResolvePath: an explicit path is kept as the given string. `pathlib` normalisation of that string is not modelled.
- ConfigStore.Save: the creation of the parent directory is folded into `writable`. The directories above the config file are not modelled.
- ConfigStore.GetAll: independence of the copy follows from value semantics. The model states no aliasing property of its own.
- ConfigCommands.Show: the rows follow the JSON file's key order in the source. Dafny maps are unordered, so the model promises only one row per key with its value.
- The scaffolder does not model permissions, symbolic links, or names holding a NUL character, which make `pathlib` raise `ValueError`. Only POSIX path syntax is modelled. Path components are compared as exact strings, as on a case-sensitive file system that does not normalise names. On a case-insensitive or normalising file system, such as the default one on macOS, `MyApp` and `myapp` name one node, and the lines below say what each member then no longer promises.
- InitCommand.Target: `..` is resolved lexically, as if the component before it were an existing directory. For a name such as `x/..` with no directory `x`, the operating system fails but the model resolves to the working directory. Through symbolic links, `..` may also differ from the lexical parent.
- InitCommand.Project: a target reached through `..` is only as faithful as `InitCommand.Target`, so the lexical caveat above applies here too.
- InitCommand.Project: on a case-insensitive file system, a node that differs from the target only in case makes the source ask (or, with `--force`, write into that node). The model sees no existing target, so its `Cancelled` and frame clauses hold only on a case-sensitive file system.
- FileTree.MakeDir: the iff holds only on a case-sensitive file system. There, a file whose name differs only in case makes `mkdir` raise, while the model's `mkdir` succeeds.
- FileTree.WriteText: the iff holds only on a case-sensitive file system. There, a directory whose name differs only in case makes `write_text` raise `IsADirectoryError`, while the model's write succeeds.
- InitCommand.ProjectOkIff: the iff holds only on a case-sensitive file system, because feasibility is decided by exact path comparison.
- InitCommand.ProjectOnFreshTarget: "the target is missing" is decided by exact string. On a case-insensitive file system, a node differing only in case breaks the exit-0 and exact-tree claims.
- InitCommand.ExistingDirectoryReused: "no clash" is decided by exact string. On a case-insensitive file system, a node of the other kind differing only in case makes the source fail where the lemma promises exit 0.
- ConfigStore.Load: whether a file is `Unloadable` depends on the locale's encoding, the Python version and the permissions of the directories above it. The model takes it as a given property of the file at that path.
- FileTree.MakeDir: the operating system's limits on the length of a path component (255 bytes) and of a whole path are not modelled. A longer name makes `mkdir` raise `ENAMETOOLONG` (and `exists()` raise it first on Python 3.10 to 3.12), while the model's `mkdir` succeeds.
- FileTree.WriteText: the same length limits are not modelled for `write_text`.
- InitCommand.ProjectOkIff: exit 0 iff the plan is feasible holds only for names within those length limits. A longer name makes the command exit 1 with nothing written.
- InitCommand.ProjectOnFreshTarget: the promise of exit 0 for every name holds only for names whose components and whole target path are within the length limits above.
- Strings are sequences of Unicode scalar values. Python strings holding lone surrogates are not modelled.

=== FILE: config_commands.dfy ===
/**
 Model of the `config` sub-commands (t3/commands/config.py). Each command except
 `reset` loads the fixed file `~/.t3/config.json`; every command changes that
 file at most once and exits. The model is a transition on the state of that
 one file together with the exit status. A write the host refuses, or a file
 the loader raises on, raises out of the command, which Python turns into exit
 status 1.
 */
module ConfigCommands {
  import opened Wrappers
  import opened ConfigStore
  import opened ExitStatus

  /** The file after a command, and the command's exit status. */
  datatype CommandResult = CommandResult(file: FileState, exit: int)

  /** What `get` prints besides its exit status: the value found, if any. */
  datatype Lookup = Lookup(file: FileState, exit: int, shown: Option<Value>)

  /** What `show` prints: the notice for an empty store, or one row per key; or the load raised. */
  datatype Listing = NoConfiguration | Table(rows: seq<(string, Value)>) | LoadRaised

  /** The keys that appear in a list of rows. */
  function RowKeys(rows: seq<(string, Value)>): set<string>
  {
    if rows == [] then {} else RowKeys(rows[..|rows| - 1]) + {rows[|rows| - 1].0}
  }

  /** Rows list a map: each key once, with its value, and every key appears. */
  predicate ListsMap(rows: seq<(string, Value)>, data: Config)
  {
    && RowKeys(rows) == data.Keys
    && |rows| == |data|
    && (forall i, j | 0 <= i < j < |rows| :: rows[i].0 != rows[j].0)
    && (forall i | 0 <= i < |rows| :: rows[i].0 in data && rows[i].1 == data[rows[i].0])
  }

  /** `config set key value`: the loaded map with `key` bound to the string value is written back. */
  function SetCommand(file: FileState, key: string, value: string, writable: bool): (r: CommandResult)
    ensures r.exit == ExitOk <==> writable && file != Unloadable
    ensures r.exit == ExitOk ==> r.file.Stored? && key in r.file.data && r.file.data[key] == Str(value)
    ensures r.exit == ExitOk ==> forall k | k != key :: (k in r.file.data <==> k in Load(file).value)
    ensures r.exit == ExitOk ==> forall k | k != key && k in Load(file).value :: r.file.data[k] == Load(file).value[k]
    ensures r.exit != ExitOk ==> r.file == file && r.exit == ExitError
  {
    match Load(file)
    case None => CommandResult(file, ExitError)
    case Some(loaded) =>
      match Save(loaded[key := Str(value)], writable)
      case Ok(f) => CommandResult(f, ExitOk)
      case IoError => CommandResult(file, ExitError)
  }

  /** `config get key`: exit 1 on a missing key; the file is never touched. */
  function GetCommand(file: FileState, key: string): (r: Lookup)
    ensures r.file == file
    ensures r.exit == ExitOk <==> Load(file).Some? && key in Load(file).value
    ensures r.exit != ExitOk ==> r.exit == ExitError && r.shown == None
    ensures r.exit == ExitOk ==> r.shown == Some(Load(file).value[key])
  {
    match Load(file)
    case None => Lookup(file, ExitError, None)
    case Some(data) =>
      if key in data then Lookup(file, ExitOk, Some(data[key]))
      else Lookup(file, ExitError, None)
  }

  /** `config delete key`: a present key is removed and the map rewritten; a missing key writes nothing. */
  function DeleteCommand(file: FileState, key: string, writable: bool): (r: CommandResult)
    ensures file == Unloadable || key !in Load(file).value ==> r == CommandResult(file, ExitError)
    ensures r.exit == ExitOk <==> file != Unloadable && key in Load(file).value && writable
    ensures r.exit == ExitOk ==> r.file == Stored(Load(file).value - {key})
    ensures r.exit != ExitOk ==> r.file == file && r.exit == ExitError
  {
    match Load(file)
    case None => CommandResult(file, ExitError)
    case Some(data) =>
      if key in data then
        match Save(data - {key}, writable)
        case Ok(f) => CommandResult(f, ExitOk)
        case IoError => CommandResult(file, ExitError)
      else
        CommandResult(file, ExitError)
  }

  /**
   `config reset`: when confirmed, unlink with `missing_ok=True`; when declined,
   nothing. The file is never loaded, so even an unloadable file is removed.
   */
  function ResetCommand(file: FileState, confirmed: bool, writable: bool): (r: CommandResult)
    ensures !confirmed ==> r == CommandResult(file, ExitOk)
    ensures confirmed && (file == Absent || writable) ==> r == CommandResult(Absent, ExitOk)
    ensures r.exit != ExitOk ==> r.exit == ExitError && r.file == file && file != Absent && !writable
  {
    if !confirmed then CommandResult(file, ExitOk)
    else if file == Absent || writable then CommandResult(Absent, ExitOk)
    else CommandResult(file, ExitError)
  }

  /** `config show`: the notice for an empty store, otherwise one table row per key. */
  method Show(file: FileState) returns (out: Listing)
    ensures out == LoadRaised <==> file == Unloadable
    ensures out == NoConfiguration <==> Load(file) == Some(map[])
    ensures out.Table? ==> Load(file).Some? && ListsMap(out.rows, Load(file).value)
  {
    if file == Unloadable {
      return LoadRaised;
    }
    var data := Load(file).value;
    if data == map[] {
      return NoConfiguration;
    }
    var rows: seq<(string, Value)> := [];
    var rest := data.Keys;
    while rest != {}
      invariant rest <= data.Keys
      invariant RowKeys(rows) == data.Keys - rest
      invariant |rows| + |rest| == |data|
      invariant forall i, j | 0 <= i < j < |rows| :: rows[i].0 != rows[j].0
      invariant forall i | 0 <= i < |rows| :: rows[i].0 in data && rows[i].0 !in rest && rows[i].1 == data[rows[i].0]
      decreases rest
    {
      var k :| k in rest;
      assert (rows + [(k, data[k])])[..|rows|] == rows;
      rows := rows + [(k, data[k])];
      rest := rest - {k};
    }
    return Table(rows);
  }

  /**
   The command and the class agree: `config set` on the default file does what
   constructing a `ConfigManager` there and calling `set` does, and exits 1
   exactly when the constructor or the save raises.
   */
  lemma SetCommandMatchesManager(home: string, disk: map<string, FileState>, key: string, value: string, writable: bool)
    ensures var file := FileAt(disk, DefaultPath(home));
            var c := SetCommand(file, key, value, writable);
            match Open(None, home, disk)
            case None => c == CommandResult(file, ExitError)
            case Some(m) =>
              var s := Set(m, file, key, Str(value), writable);
              c.file == s.file && (c.exit == ExitOk <==> s.out.Ok?)
  {
  }

  /** The command and the class agree: `config get` shows what `ConfigManager.get` returns for a present key. */
  lemma GetCommandMatchesManager(home: string, disk: map<string, FileState>, key: string, default: Value)
    ensures var file := FileAt(disk, DefaultPath(home));
            var c := GetCommand(file, key);
            match Open(None, home, disk)
            case None => c == Lookup(file, ExitError, None)
            case Some(m) =>
              && (c.exit == ExitOk <==> key in GetAll(m))
              && (c.exit == ExitOk ==> c.shown == Some(Get(m, key, default)))
  {
  }

  /** The command and the class agree: `config delete` writes what `ConfigManager.delete` would. */
  lemma DeleteCommandMatchesManager(home: string, disk: map<string, FileState>, key: string, writable: bool)
    ensures var file := FileAt(disk, DefaultPath(home));
            var c := DeleteCommand(file, key, writable);
            match Open(None, home, disk)
            case None => c == CommandResult(file, ExitError)
            case Some(m) =>
              var s := Delete(m, file, key, writable);
              c.file == s.file && (c.exit == ExitOk <==> s.out == Ok(true))
  {
  }

  /**
   The command and the class agree: a confirmed `config reset` leaves the file
   `ConfigManager.reset` leaves, and fails exactly when that raises.
   */
  lemma ResetCommandMatchesManager(m: Manager, file: FileState, writable: bool)
    ensures var c := ResetCommand(file, true, writable);
            var s := Reset(m, file, writable);
            c.file == s.file && (c.exit == ExitOk <==> s.out.Ok?)
  {
  }

  /** A `set` on a corrupt file starts from the empty map: the result holds the one key. */
  lemma SetOnCorruptFile(key: string, value: string)
    ensures SetCommand(Corrupt, key, value, true).file == Stored(map[key := Str(value)])
  {
  }

  /** On a file the loader raises on, every command that loads exits 1 and writes nothing. */
  lemma UnloadableFileRefused(key: string, value: string, writable: bool)
    ensures SetCommand(Unloadable, key, value, writable) == CommandResult(Unloadable, ExitError)
    ensures DeleteCommand(Unloadable, key, writable) == CommandResult(Unloadable, ExitError)
    ensures GetCommand(Unloadable, key) == Lookup(Unloadable, ExitError, None)
  {
  }
}

=== FILE: config_store.dfy ===
/**
 Model of `ConfigManager` (t3/core/config.py): an in-memory key/value map that
 is written through to one JSON file on every mutation.

 The file is seen abstractly through `json.load`: it is absent, it does not
 parse (or cannot be read), the loader raises on it, or it holds a JSON object. Every operation is a
 pure transition on the manager (path and in-memory map) and the state of its
 file. Whether the host lets the process create the file's directory and write
 or remove the file is the parameter `writable`; when it does not, the Python
 code raises, which the model reports as `IoError`.
 */
module ConfigStore {
  import opened Wrappers

  /** A JSON scalar as stored in the file; the command line only stores strings. */
  datatype Value = Str(s: string) | Int(i: int) | Bool(b: bool) | Null

  type Config = map<string, Value>

  /**
   The config file as the loader sees it. `Corrupt` is a file that cannot be
   opened or read, or whose text is not JSON: the loader catches both. A file
   is `Unloadable` when the loader raises on it instead: its bytes are not
   text in the locale's encoding (`json.load` raises `UnicodeDecodeError`),
   or the existence probe made before the `try` fails with an error other
   than "not found", such as a directory without search permission or a
   component that is too long (Python 3.10 to 3.12 re-raise those).
   */
  datatype FileState = Absent | Corrupt | Unloadable | Stored(data: Config)

  /** The manager: its resolved file path and its in-memory map. */
  datatype Manager = Manager(path: string, data: Config)

  /** What an operation leaves behind: the manager, the file, and what it returned or raised. */
  datatype Step<T> = Step(manager: Manager, file: FileState, out: Outcome<T>)

  const ConfigDirName := ".t3"
  const ConfigFileName := "config.json"

  /** `~/.t3/config.json` below the injected home directory. */
  function DefaultPath(home: string): (p: string)
    ensures |p| > |home|
    ensures p[..|home|] == home
  {
    home + "/" + ConfigDirName + "/" + ConfigFileName
  }

  /** The constructor's choice of path: an explicit path unless it is `None` or empty. */
  function ResolvePath(configPath: Option<string>, home: string): (p: string)
    ensures p != ""
    ensures configPath.Some? && configPath.value != "" ==> p == configPath.value
    ensures configPath == None || configPath == Some("") ==> p == DefaultPath(home)
  {
    if configPath.Some? && configPath.value != "" then configPath.value else DefaultPath(home)
  }

  /** The file found at a path on the host; a path the host does not list is absent. */
  function FileAt(disk: map<string, FileState>, path: string): FileState
  {
    if path in disk then disk[path] else Absent
  }

  /**
   `load_config`: a missing, unreadable or unparsable file is the empty map.
   Only `JSONDecodeError` and `OSError` inside the `try` are caught, so an
   unloadable file raises out of the loader (`None`).
   */
  function Load(file: FileState): (data: Option<Config>)
    ensures data == None <==> file == Unloadable
    ensures file.Stored? ==> data == Some(file.data)
    ensures file == Absent || file == Corrupt ==> data == Some(map[])
  {
    match file
    case Stored(d) => Some(d)
    case Unloadable => None
    case _ => Some(map[])
  }

  /** `save_config`: the whole map is written as one JSON object, or the write raises. */
  function Save(data: Config, writable: bool): (r: Outcome<FileState>)
    ensures r.Ok? <==> writable
    ensures r.Ok? ==> r.value == Stored(data) && Load(r.value) == Some(data)
  {
    if writable then Ok(Stored(data)) else IoError
  }

  /** The store and its file agree: reloading the file gives the in-memory map. */
  predicate Synced(m: Manager, file: FileState)
  {
    Load(file) == Some(m.data)
  }

  /**
   `ConfigManager(config_path)`: resolve the path, then load it exactly once.
   The constructor raises (`None`) when the loader does.
   */
  function Open(configPath: Option<string>, home: string, disk: map<string, FileState>): (r: Option<Manager>)
    ensures r == None <==> FileAt(disk, ResolvePath(configPath, home)) == Unloadable
    ensures r.Some? ==> r.value.path == ResolvePath(configPath, home)
    ensures r.Some? ==> Synced(r.value, FileAt(disk, r.value.path))
    ensures r.Some? && FileAt(disk, r.value.path) in {Absent, Corrupt} ==> r.value.data == map[]
  {
    var path := ResolvePath(configPath, home);
    match Load(FileAt(disk, path))
    case None => None
    case Some(data) => Some(Manager(path, data))
  }

  /** `get(key, default)`: the stored value, or the default when the key is missing. */
  function Get(m: Manager, key: string, default: Value): (v: Value)
    ensures key in m.data ==> v == m.data[key]
    ensures key !in m.data ==> v == default
  {
    if key in m.data then m.data[key] else default
  }

  /**
   `set(key, value)`: update the map, then save it. When the save raises, the
   in-memory map has already changed and the file has not.
   */
  function Set(m: Manager, file: FileState, key: string, value: Value, writable: bool): (r: Step<()>)
    ensures r.manager.path == m.path
    ensures forall d :: Get(r.manager, key, d) == value
    ensures forall k | k != key :: (k in r.manager.data <==> k in m.data)
    ensures forall k | k != key && k in m.data :: r.manager.data[k] == m.data[k]
    ensures r.out.Ok? <==> writable
    ensures r.out.Ok? ==> r.file == Stored(r.manager.data) && Synced(r.manager, r.file)
    ensures r.out.IoError? ==> r.file == file
  {
    var m' := m.(data := m.data[key := value]);
    match Save(m'.data, writable)
    case Ok(f) => Step(m', f, Ok(()))
    case IoError => Step(m', file, IoError)
  }

  /**
   `delete(key)`: true iff the key was present. A missing key changes nothing
   and writes nothing; a present key is removed and the map is saved.
   */
  function Delete(m: Manager, file: FileState, key: string, writable: bool): (r: Step<bool>)
    ensures key !in m.data ==> r == Step(m, file, Ok(false))
    ensures key in m.data && writable ==> r.out == Ok(true)
    ensures r.out.Ok? ==> (r.out.value <==> key in m.data)
    ensures r.manager.path == m.path
    ensures key !in r.manager.data
    ensures forall k | k != key :: (k in r.manager.data <==> k in m.data)
    ensures forall k | k != key && k in m.data :: r.manager.data[k] == m.data[k]
    ensures r.out == Ok(true) ==> r.file == Stored(r.manager.data) && Synced(r.manager, r.file)
    ensures r.out.IoError? ==> r.file == file && key in m.data && !writable
  {
    if key in m.data then
      var m' := m.(data := m.data - {key});
      match Save(m'.data, writable)
      case Ok(f) => Step(m', f, Ok(true))
      case IoError => Step(m', file, IoError)
    else
      Step(m, file, Ok(false))
  }

  /** `get_all()`: a copy of the map; being a value, later updates of either side cannot reach the other. */
  function GetAll(m: Manager): (all: Config)
    ensures forall k :: k in all <==> k in m.data
    ensures forall k, d | k in all :: all[k] == Get(m, k, d)
  {
    m.data
  }

  /**
   `reset()`: empty the map, then unlink the file with `missing_ok=True`. An
   absent file is never an error; removing an existing one needs `writable`.
   */
  function Reset(m: Manager, file: FileState, writable: bool): (r: Step<()>)
    ensures r.manager == m.(data := map[])
    ensures r.out.Ok? <==> file == Absent || writable
    ensures r.out.Ok? ==> r.file == Absent && Synced(r.manager, r.file)
    ensures r.out.IoError? ==> r.file == file
  {
    var m' := m.(data := map[]);
    if file == Absent then Step(m', Absent, Ok(()))
    else if writable then Step(m', Absent, Ok(()))
    else Step(m', file, IoError)
  }

  /** One call on a manager, as a caller of the class makes it. */
  datatype Op =
    | SetOp(key: string, value: Value)
    | DeleteOp(key: string)
    | GetOp(key: string, default: Value)
    | GetAllOp
    | ResetOp

  /** The manager and file after one call; reads leave both as they were. */
  function Apply(m: Manager, file: FileState, op: Op, writable: bool): (Manager, FileState)
  {
    match op
    case SetOp(k, v) => var r := Set(m, file, k, v, writable); (r.manager, r.file)
    case DeleteOp(k) => var r := Delete(m, file, k, writable); (r.manager, r.file)
    case GetOp(_, _) => (m, file)
    case GetAllOp => (m, file)
    case ResetOp => var r := Reset(m, file, writable); (r.manager, r.file)
  }

  /** A session: the calls made on one manager, in order, on a host that accepts every write. */
  function Run(m: Manager, file: FileState, ops: seq<Op>): (Manager, FileState)
    decreases |ops|
  {
    if ops == [] then (m, file)
    else
      var (m', file') := Apply(m, file, ops[0], true);
      Run(m', file', ops[1..])
  }

  /** A call on a writable host keeps memory and file in agreement. */
  lemma ApplyKeepsSynced(m: Manager, file: FileState, op: Op)
    requires Synced(m, file)
    ensures Synced(Apply(m, file, op, true).0, Apply(m, file, op, true).1)
    ensures Apply(m, file, op, true).0.path == m.path
  {
  }

  /** Write-through: every session on a writable host ends with the file holding exactly the map. */
  lemma {:induction false} RunKeepsSynced(m: Manager, file: FileState, ops: seq<Op>)
    requires Synced(m, file)
    ensures Synced(Run(m, file, ops).0, Run(m, file, ops).1)
    ensures Run(m, file, ops).0.path == m.path
    decreases |ops|
  {
    if ops != [] {
      ApplyKeepsSynced(m, file, ops[0]);
      var (m', file') := Apply(m, file, ops[0], true);
      RunKeepsSynced(m', file', ops[1..]);
    }
  }

  /**
   A new manager opened after a session on the same path sees exactly the map
   the session ended with, whatever the file held before the session.
   */
  lemma ReopenAfterSession(configPath: Option<string>, home: string, disk: map<string, FileState>, ops: seq<Op>)
    requires Open(configPath, home, disk).Some?
    ensures var m := Open(configPath, home, disk).value;
            var (m', file') := Run(m, FileAt(disk, m.path), ops);
            Open(configPath, home, disk[m.path := file']) == Some(m')
  {
    var m := Open(configPath, home, disk).value;
    RunKeepsSynced(m, FileAt(disk, m.path), ops);
  }

  /** `set` then `get` in one session returns the value set. */
  lemma SetThenGet(m: Manager, file: FileState, key: string, value: Value, default: Value, writable: bool)
    ensures Get(Set(m, file, key, value, writable).manager, key, default) == value
  {
  }

  /** After `delete(key)`, `get(key, default)` is the default. */
  lemma DeleteThenGet(m: Manager, file: FileState, key: string, default: Value, writable: bool)
    ensures Get(Delete(m, file, key, writable).manager, key, default) == default
  {
  }

  /** `reset()` followed by a fresh load gives the empty map, and the file is gone. */
  lemma ResetThenReopen(m: Manager, file: FileState, disk: map<string, FileState>)
    requires m.path in disk ==> disk[m.path] == file
    ensures var r := Reset(m, file, true);
            r.file == Absent && Load(FileAt(disk[m.path := r.file], m.path)) == Some(map[])
  {
  }

  /** A file that does not parse loads as the empty map and raises nothing. */
  lemma CorruptFileLoadsEmpty(configPath: Option<string>, home: string, disk: map<string, FileState>)
    requires FileAt(disk, ResolvePath(configPath, home)) == Corrupt
    ensures Open(configPath, home, disk) == Some(Manager(ResolvePath(configPath, home), map[]))
  {
  }

  /** A file the loader raises on makes the constructor raise. */
  lemma UnloadableFileRaises(configPath: Option<string>, home: string, disk: map<string, FileState>)
    requires FileAt(disk, ResolvePath(configPath, home)) == Unloadable
    ensures Open(configPath, home, disk) == None
  {
  }
}

=== FILE: exit_status.dfy ===
/** Process exit statuses shared by the commands. */
module ExitStatus {

  /** A command that returns normally. */
  const ExitOk := 0

  /** `typer.Exit(1)`, or an exception that escapes the command, which Python reports as status 1. */
  const ExitError := 1
}

=== FILE: file_tree.dfy ===
/**
 The part of a POSIX filesystem that `init project` (t3/commands/init.py)
 touches: a tree of directories and text files, `pathlib` joining, and the two
 primitives the command calls, `Path.mkdir(exist_ok=True)` and
 `Path.write_text`. A `..` component is resolved against the component
 before it, as the operating system does when every component is a real
 directory (symbolic links are not modelled). Path components are compared
 as exact strings, as on a case-sensitive file system that does not normalise
 names: `MyApp` and `myapp` are two different nodes here. A list of entries is applied one after the other and the
 first failing primitive stops the run, leaving the effects of the earlier
 ones in place, as the raised exception does in the source.
 */
module FileTree {

  /** A path as its components below the root; `[]` is the root directory itself. */
  type Path = seq<string>

  datatype Node = Dir | File(content: string)

  /** The tree maps every existing path except the root to its node. */
  type Tree = map<Path, Node>

  function Parent(p: Path): (q: Path)
    ensures p != [] ==> |q| == |p| - 1 && p == q + [p[|p| - 1]]
  {
    if p == [] then [] else p[..|p| - 1]
  }

  /** The root always exists and is a directory. */
  predicate IsDir(t: Tree, p: Path)
  {
    p == [] || (p in t && t[p].Dir?)
  }

  predicate Exists(t: Tree, p: Path)
  {
    p == [] || p in t
  }

  /** A tree a real filesystem can hold: every entry lies in an existing directory. */
  predicate WellFormed(t: Tree)
  {
    [] !in t && forall p {:trigger Parent(p)} | p in t :: IsDir(t, Parent(p))
  }

  /** The components `pathlib` keeps from one piece of a path: empty and `.` pieces vanish. */
  function Keep(piece: string): (cs: seq<string>)
    ensures forall i | 0 <= i < |cs| :: cs[i] != "" && cs[i] != "."
  {
    if piece == "" || piece == "." then [] else [piece]
  }

  /** Split `s` at every `/`, with `piece` the part of the current component already read. */
  function SplitFrom(s: string, piece: string): (cs: seq<string>)
    requires '/' !in piece
    ensures forall i | 0 <= i < |cs| :: cs[i] != "" && cs[i] != "." && '/' !in cs[i]
    decreases |s|
  {
    if s == [] then Keep(piece)
    else if s[0] == '/' then Keep(piece) + SplitFrom(s[1..], "")
    else SplitFrom(s[1..], piece + [s[0]])
  }

  /** The components of a path string as `PurePosixPath` parses them. */
  function Components(s: string): (cs: seq<string>)
    ensures forall i | 0 <= i < |cs| :: cs[i] != "" && cs[i] != "." && '/' !in cs[i]
    ensures '/' !in s && s != "" && s != "." ==> cs == [s]
    ensures '/' !in s && (s == "" || s == ".") ==> cs == []
  {
    if '/' !in s then
      SplitWithoutSlash(s, "");
      assert "" + s == s;
      SplitFrom(s, "")
    else
      SplitFrom(s, "")
  }

  /** A path with no empty, `.` or `..` component, and no `/` inside a component. */
  predicate Resolved(p: Path)
  {
    forall i | 0 <= i < |p| :: p[i] != "" && p[i] != "." && p[i] != ".." && '/' !in p[i]
  }

  /** Follow components from `base`: `..` goes up one level (the root is its own parent), any other goes down. */
  function Walk(base: Path, cs: seq<string>): (p: Path)
    requires forall i | 0 <= i < |cs| :: cs[i] != "" && cs[i] != "." && '/' !in cs[i]
    ensures Resolved(base) ==> Resolved(p)
    ensures ".." !in cs ==> p == base + cs
    decreases |cs|
  {
    if cs == [] then base
    else if cs[0] == ".." then Walk(Parent(base), cs[1..])
    else
      var p := Walk(base + [cs[0]], cs[1..]);
      assert ".." !in cs ==> ".." !in cs[1..] && base + [cs[0]] + cs[1..] == base + cs;
      p
  }

  /**
   `base / name`, as the operating system resolves it: an absolute name starts
   from the root, a relative one from `base`, and each component is followed.
   */
  function Join(base: Path, name: string): (p: Path)
    ensures Resolved(base) || (name != "" && name[0] == '/') ==> Resolved(p)
    ensures name != "" && name[0] != '/' && ".." !in Components(name) ==> p == base + Components(name)
  {
    Walk(if name != "" && name[0] == '/' then [] else base, Components(name))
  }

  lemma {:induction false} SplitWithoutSlash(s: string, piece: string)
    requires '/' !in piece && '/' !in s
    ensures SplitFrom(s, piece) == Keep(piece + s)
    decreases |s|
  {
    if s == [] {
      assert piece + s == piece;
    } else {
      assert s[0] in s;
      SplitWithoutSlash(s[1..], piece + [s[0]]);
      assert piece + [s[0]] + s[1..] == piece + s;
    }
  }

  /** A name without `/` that is neither empty, `.` nor `..` adds exactly one component. */
  lemma PlainNameJoin(base: Path, name: string)
    requires name != "" && name != "." && name != ".." && '/' !in name
    ensures Join(base, name) == base + [name]
  {
    assert name[0] in name;
  }

  /** The name `..` is the parent of the base, and the root's parent is the root. */
  lemma ParentNameJoin(base: Path)
    ensures Join(base, "..") == Parent(base)
  {
    assert Components("..") == [".."];
  }

  /** One step of a layout: a directory to create or a file to write at a path. */
  datatype Entry = Entry(path: Path, node: Node)

  /** The tree after a step or a run, and whether it completed without raising. */
  datatype Effect = Effect(tree: Tree, ok: bool)

  /** The step's effect is present in the tree. */
  predicate Holds(t: Tree, e: Entry)
  {
    match e.node
    case Dir => IsDir(t, e.path)
    case File(c) => e.path in t && t[e.path] == File(c)
  }

  /** The two trees agree at path `q`. */
  predicate Agree(t: Tree, t': Tree, q: Path)
  {
    (q in t <==> q in t') && (q in t ==> t[q] == t'[q])
  }

  /** The two trees agree everywhere outside `ps`. */
  ghost predicate Frame(t: Tree, t': Tree, ps: set<Path>)
  {
    forall q | q !in ps :: Agree(t, t', q)
  }

  /** The paths a list of entries names. */
  function Paths(es: seq<Entry>): (ps: set<Path>)
    ensures forall i | 0 <= i < |es| :: es[i].path in ps
    ensures forall q | q in ps :: exists i | 0 <= i < |es| :: es[i].path == q
  {
    if es == [] then {} else {es[0].path} + Paths(es[1..])
  }

  /**
   `Path.mkdir(exist_ok=True)` without `parents`: succeeds on an existing
   directory, fails when a file is in the way (`FileExistsError`) or when the
   parent is not a directory (`FileNotFoundError`, `NotADirectoryError`).
   */
  function MakeDir(t: Tree, p: Path): (r: Effect)
    ensures r.ok <==> IsDir(t, p) || (p !in t && IsDir(t, Parent(p)))
    ensures r.ok ==> IsDir(r.tree, p)
    ensures !r.ok ==> r.tree == t
    ensures Frame(t, r.tree, {p})
  {
    if IsDir(t, p) then Effect(t, true)
    else if p in t then Effect(t, false)
    else if IsDir(t, Parent(p)) then Effect(t[p := Dir], true)
    else Effect(t, false)
  }

  /**
   `Path.write_text(content)`: creates or truncates a file; fails on a
   directory (`IsADirectoryError`) or when the parent is not a directory.
   */
  function WriteText(t: Tree, p: Path, content: string): (r: Effect)
    ensures r.ok <==> !IsDir(t, p) && (p in t || IsDir(t, Parent(p)))
    ensures r.ok ==> p in r.tree && r.tree[p] == File(content)
    ensures !r.ok ==> r.tree == t
    ensures Frame(t, r.tree, {p})
  {
    if IsDir(t, p) then Effect(t, false)
    else if p in t || IsDir(t, Parent(p)) then Effect(t[p := File(content)], true)
    else Effect(t, false)
  }

  function Apply(t: Tree, e: Entry): (r: Effect)
    ensures r.ok ==> Holds(r.tree, e)
    ensures !r.ok ==> r.tree == t
    ensures Frame(t, r.tree, {e.path})
  {
    match e.node
    case Dir => MakeDir(t, e.path)
    case File(c) => WriteText(t, e.path, c)
  }

  /** Adding a node below an existing directory, or replacing a file by a file, keeps a tree real. */
  lemma ApplyKeepsWellFormed(t: Tree, e: Entry)
    requires WellFormed(t)
    ensures WellFormed(Apply(t, e).tree)
  {
    var r := Apply(t, e);
    if r.ok && r.tree != t {
      var p := e.path;
      assert p != [] && IsDir(t, Parent(p)) && (p in t ==> t[p].File?);
      forall q | q in r.tree
        ensures IsDir(r.tree, Parent(q))
      {
        if q != p {
          assert Agree(t, r.tree, q);
          assert Agree(t, r.tree, Parent(q));
        } else {
          assert Agree(t, r.tree, Parent(p));
        }
      }
      assert Agree(t, r.tree, []);
    }
  }

  /** Apply the entries in order; the first failure stops the run and keeps what was done. */
  function Materialize(t: Tree, es: seq<Entry>): (r: Effect)
    ensures Frame(t, r.tree, Paths(es))
    decreases |es|
  {
    if es == [] then Effect(t, true)
    else
      var first := Apply(t, es[0]);
      if !first.ok then first else Materialize(first.tree, es[1..])
  }

  /** A run, complete or stopped, leaves a real tree real. */
  lemma {:induction false} MaterializeKeepsWellFormed(t: Tree, es: seq<Entry>)
    requires WellFormed(t)
    ensures WellFormed(Materialize(t, es).tree)
    decreases |es|
  {
    if es != [] {
      ApplyKeepsWellFormed(t, es[0]);
      var first := Apply(t, es[0]);
      if first.ok {
        MaterializeKeepsWellFormed(first.tree, es[1..]);
      }
    }
  }

  /** Two entries of a layout never name the same path. */
  predicate DistinctPaths(es: seq<Entry>)
  {
    forall i, j | 0 <= i < j < |es| :: es[i].path != es[j].path
  }

  /** The step would find a node of the other kind at its path. */
  predicate Clash(t: Tree, e: Entry)
  {
    match e.node
    case Dir => e.path in t && t[e.path].File?
    case File(_) => IsDir(t, e.path)
  }

  /** The parent of entry `i` is a directory already, or an earlier entry creates it. */
  predicate ParentReady(t: Tree, es: seq<Entry>, i: nat)
    requires i < |es|
  {
    || es[i].path == []
    || IsDir(t, Parent(es[i].path))
    || exists j | 0 <= j < i :: es[j].path == Parent(es[i].path) && es[j].node == Dir
  }

  /** Every step of the run can succeed. */
  predicate Feasible(t: Tree, es: seq<Entry>)
  {
    forall i | 0 <= i < |es| :: ParentReady(t, es, i) && !Clash(t, es[i])
  }

  /** On a real tree a single step succeeds iff its parent is a directory and nothing clashes. */
  lemma ApplyOkIff(t: Tree, e: Entry)
    requires WellFormed(t)
    ensures Apply(t, e).ok <==> (e.path == [] || IsDir(t, Parent(e.path))) && !Clash(t, e)
  {
  }

  /** After a successful first step, a later entry that could succeed still can. */
  lemma ReadyForward(t: Tree, es: seq<Entry>, i: nat)
    requires 1 <= i < |es| && DistinctPaths(es) && Apply(t, es[0]).ok
    requires ParentReady(t, es, i) && !Clash(t, es[i])
    ensures ParentReady(Apply(t, es[0]).tree, es[1..], i - 1)
    ensures !Clash(Apply(t, es[0]).tree, es[1..][i - 1])
  {
    var t1 := Apply(t, es[0]).tree;
    var rest := es[1..];
    var p := Parent(es[i].path);
    assert rest[i - 1] == es[i];
    assert es[i].path != es[0].path;
    assert Agree(t, t1, es[i].path);
    if es[i].path != [] {
      if exists j | 0 <= j < i :: es[j].path == p && es[j].node == Dir {
        var j :| 0 <= j < i && es[j].path == p && es[j].node == Dir;
        if j > 0 {
          assert rest[j - 1] == es[j];
        }
      } else if p != es[0].path {
        assert Agree(t, t1, p);
      }
    }
  }

  /** After a successful first step, a later entry that can succeed from the new tree could from the old. */
  lemma ReadyBackward(t: Tree, es: seq<Entry>, i: nat)
    requires 1 <= i < |es| && DistinctPaths(es) && Apply(t, es[0]).ok
    requires ParentReady(Apply(t, es[0]).tree, es[1..], i - 1)
    requires !Clash(Apply(t, es[0]).tree, es[1..][i - 1])
    ensures ParentReady(t, es, i) && !Clash(t, es[i])
  {
    var t1 := Apply(t, es[0]).tree;
    var rest := es[1..];
    var e := es[i];
    var p := Parent(e.path);
    assert rest[i - 1] == e;
    assert e.path != es[0].path;
    assert Agree(t, t1, e.path);
    assert !Clash(t, e);
    if e.path != [] {
      if IsDir(t1, p) {
        if p == [] {
          assert IsDir(t, p);
        } else if p == es[0].path {
          assert Holds(t1, es[0]);
          assert es[0].node == Dir;
          assert es[0].path == p;
        } else {
          assert Agree(t, t1, p);
          assert IsDir(t, p);
        }
      } else {
        var j :| 0 <= j < i - 1 && rest[j].path == p && rest[j].node == Dir;
        assert es[j + 1] == rest[j];
        assert es[j + 1].path == p && es[j + 1].node == Dir;
      }
    }
  }

  /** Feasibility of the rest of a run, from the tree after a successful first step, gives feasibility of the run. */
  lemma FeasibleFromRest(t: Tree, es: seq<Entry>)
    requires WellFormed(t) && DistinctPaths(es) && es != [] && Apply(t, es[0]).ok
    requires Feasible(Apply(t, es[0]).tree, es[1..])
    ensures Feasible(t, es)
  {
    ApplyOkIff(t, es[0]);
    var t1 := Apply(t, es[0]).tree;
    var rest := es[1..];
    forall i | 1 <= i < |es|
      ensures ParentReady(t, es, i) && !Clash(t, es[i])
    {
      assert rest[i - 1] == es[i];
      assert ParentReady(t1, rest, i - 1) && !Clash(t1, rest[i - 1]);
      ReadyBackward(t, es, i);
    }
    assert ParentReady(t, es, 0) && !Clash(t, es[0]);
  }

  /** A feasible run whose first step succeeds leaves a feasible rest. */
  lemma RestFromFeasible(t: Tree, es: seq<Entry>)
    requires DistinctPaths(es) && es != [] && Apply(t, es[0]).ok
    requires Feasible(t, es)
    ensures Feasible(Apply(t, es[0]).tree, es[1..])
  {
    forall i | 0 <= i < |es| - 1
      ensures ParentReady(Apply(t, es[0]).tree, es[1..], i) && !Clash(Apply(t, es[0]).tree, es[1..][i])
    {
      assert ParentReady(t, es, i + 1) && !Clash(t, es[i + 1]);
      ReadyForward(t, es, i + 1);
    }
  }

  /** On a real tree a run completes iff every one of its steps can succeed. */
  lemma {:induction false} MaterializeOkIff(t: Tree, es: seq<Entry>)
    requires WellFormed(t) && DistinctPaths(es)
    ensures Materialize(t, es).ok <==> Feasible(t, es)
    decreases |es|
  {
    if es != [] {
      ApplyOkIff(t, es[0]);
      var first := Apply(t, es[0]);
      if first.ok {
        ApplyKeepsWellFormed(t, es[0]);
        MaterializeOkIff(first.tree, es[1..]);
        if Feasible(t, es) {
          RestFromFeasible(t, es);
        }
        if Feasible(first.tree, es[1..]) {
          FeasibleFromRest(t, es);
        }
      } else {
        assert !(ParentReady(t, es, 0) && !Clash(t, es[0]));
      }
    }
  }

  /** After a completed run with distinct paths, every entry's effect is in the tree. */
  lemma {:induction false} MaterializeHolds(t: Tree, es: seq<Entry>)
    requires DistinctPaths(es) && Materialize(t, es).ok
    ensures forall i | 0 <= i < |es| :: Holds(Materialize(t, es).tree, es[i])
    decreases |es|
  {
    if es != [] {
      var first := Apply(t, es[0]);
      var rest := es[1..];
      MaterializeHolds(first.tree, rest);
      var t' := Materialize(first.tree, rest).tree;
      assert es[0].path !in Paths(rest);
      assert Agree(first.tree, t', es[0].path);
      forall i | 1 <= i < |es|
        ensures Holds(t', es[i])
      {
        assert rest[i - 1] == es[i];
      }
    }
  }

  /** In a real tree, every non-root prefix of an existing path exists. */
  lemma {:induction false} AncestorExists(t: Tree, q: Path, k: nat)
    requires WellFormed(t) && q in t && 1 <= k <= |q|
    ensures q[..k] in t
    decreases |q|
  {
    if k < |q| {
      var p := Parent(q);
      assert IsDir(t, p) && p != [];
      assert p[..k] == q[..k];
      AncestorExists(t, p, k);
    } else {
      assert q[..k] == q;
    }
  }

  /** In a real tree, nothing exists below a missing non-root path. */
  lemma MissingAncestor(t: Tree, q: Path, k: nat)
    requires WellFormed(t) && 1 <= k <= |q| && q[..k] !in t
    ensures q !in t
  {
    if q in t {
      AncestorExists(t, q, k);
    }
  }

  /** A completed run away from the root adds exactly the paths of its entries. */
  lemma CompletedRunKeys(t: Tree, es: seq<Entry>)
    requires DistinctPaths(es) && Materialize(t, es).ok
    requires forall i | 0 <= i < |es| :: es[i].path != []
    ensures forall q :: q in Materialize(t, es).tree <==> q in t || q in Paths(es)
  {
    var t' := Materialize(t, es).tree;
    MaterializeHolds(t, es);
    forall q
      ensures q in t' <==> q in t || q in Paths(es)
    {
      if q !in Paths(es) {
        assert Agree(t, t', q);
      } else {
        var i :| 0 <= i < |es| && es[i].path == q;
        assert Holds(t', es[i]);
      }
    }
  }

  /** A run whose first step raises leaves the tree as it was. */
  lemma FirstStepFails(t: Tree, es: seq<Entry>)
    requires es != [] && !Apply(t, es[0]).ok
    ensures Materialize(t, es) == Effect(t, false)
  {
  }
}

=== FILE: init_project.dfy ===
/**
 Model of `init project` (t3/commands/init.py): pick the project name (the
 option, or the answer to the prompt), find the target below the working
 directory, ask before reusing an existing target unless `--force`, then write
 the template's layout. Every template is a declarative list of entries
 relative to the target; `FileTree.Materialize` writes it.

 The command does not check the name: `Utils.IsValidProjectName` is never
 called here, so any name is accepted and joined onto the working directory.
 */
module InitCommand {
  import opened FileTree
  import Utils
  import opened ExitStatus

  /** The tree after the command, and its exit status. */
  datatype InitResult = InitResult(tree: Tree, exit: int)

  /** The templates with a layout of their own. */
  datatype Template = Basic | Python | Web

  /** `s` occurs somewhere in `text`. */
  predicate Contains(text: string, s: string)
  {
    exists i, j | 0 <= i <= j <= |text| :: text[i..j] == s
  }

  lemma ContainsMiddle(a: string, b: string, c: string)
    ensures Contains(a + b + c, b)
  {
    var text := a + b + c;
    assert text[|a|..|a| + |b|] == b;
  }

  /** A text file made of the given lines, each ended by a newline. */
  function Lines(ls: seq<string>): string
    decreases |ls|
  {
    if ls == [] then "" else ls[0] + "\n" + Lines(ls[1..])
  }

  /** Text found in the tail of a string is found in the whole string. */
  lemma ContainsAfter(a: string, b: string, s: string)
    requires Contains(b, s)
    ensures Contains(a + b, s)
  {
    var i, j :| 0 <= i <= j <= |b| && b[i..j] == s;
    assert (a + b)[|a| + i..|a| + j] == s;
  }

  /** Text found in a part of a string is found in the string. */
  lemma ContainsTrans(text: string, part: string, s: string)
    requires Contains(text, part) && Contains(part, s)
    ensures Contains(text, s)
  {
    var i, j :| 0 <= i <= j <= |text| && text[i..j] == part;
    var k, l :| 0 <= k <= l <= |part| && part[k..l] == s;
    assert text[i + k..i + l] == s by {
      forall m | 0 <= m < |s|
        ensures text[i + k..i + l][m] == s[m]
      {
        assert s[m] == part[k + m];
        assert part[k + m] == text[i + k + m];
      }
    }
  }

  /** Every line occurs in the joined text. */
  lemma {:induction false} LineInLines(ls: seq<string>, i: nat)
    requires i < |ls|
    ensures Contains(Lines(ls), ls[i])
    decreases |ls|
  {
    if i == 0 {
      ContainsMiddle("", ls[0], "\n" + Lines(ls[1..]));
      assert "" + ls[0] + ("\n" + Lines(ls[1..])) == Lines(ls);
    } else {
      LineInLines(ls[1..], i - 1);
      ContainsAfter(ls[0] + "\n", Lines(ls[1..]), ls[i]);
    }
  }

  /** `README.md`: a level-one Markdown heading naming the project, then a placeholder paragraph. */
  function Readme(name: string): (r: string)
    ensures |r| > |name| + 2 && r[..|name| + 2] == "# " + name
    ensures r[|r| - 1] == '\n'
  {
    "# " + name + "\n\nYour new project description here.\n"
  }

  /** The `.gitignore` every template writes; it does not depend on the name. */
  const Gitignore: string :=
    "# OS generated files\n"
    + ".DS_Store\n"
    + ".DS_Store?\n"
    + "._*\n"
    + ".Spotlight-V100\n"
    + ".Trashes\n"
    + "ehthumbs.db\n"
    + "Thumbs.db\n"
    + "\n"
    + "# Python\n"
    + "__pycache__/\n"
    + "*.py[cod]\n"
    + "*$py.class\n"
    + "*.so\n"
    + ".Python\n"
    + "build/\n"
    + "develop-eggs/\n"
    + "dist/\n"
    + "downloads/\n"
    + "eggs/\n"
    + ".eggs/\n"
    + "lib/\n"
    + "lib64/\n"
    + "parts/\n"
    + "sdist/\n"
    + "var/\n"
    + "wheels/\n"
    + "*.egg-info/\n"
    + ".installed.cfg\n"
    + "*.egg\n"
    + "\n"
    + "# Virtual environments\n"
    + ".env\n"
    + ".venv\n"
    + "env/\n"
    + "venv/\n"
    + "ENV/\n"
    + "env.bak/\n"
    + "venv.bak/\n"
    + "\n"
    + "# IDE\n"
    + ".vscode/\n"
    + ".idea/\n"
    + "*.swp\n"
    + "*.swo\n"
    + "*~\n"
    + "\n"
    + "# Logs\n"
    + "*.log\n"
    + "logs/\n"
    + "\n"
    + "# Node modules\n"
    + "node_modules/\n"
    + "npm-debug.log*\n"
    + "yarn-debug.log*\n"
    + "yarn-error.log*\n"

  function Greeting(name: string): string
  {
    "print(\"Hello from " + name + "!\")"
  }

  /** The lines of `src/main.py`: a module whose `main` prints the greeting. */
  function MainPyLines(name: string): seq<string>
  {
    [ "\"\"\"Main module for " + name + ".\"\"\"",
      "",
      "def main():",
      "    " + Greeting(name),
      "",
      "if __name__ == \"__main__\":",
      "    main()" ]
  }

  function MainPy(name: string): string
  {
    Lines(MainPyLines(name))
  }

  function ManifestNameLine(name: string): string
  {
    "name = \"" + name + "\""
  }

  /** The lines of `pyproject.toml`: the name, fixed metadata and pinned development tools. */
  function PyprojectLines(name: string): seq<string>
  {
    [ "[project]",
      ManifestNameLine(name),
      "version = \"0.1.0\"",
      "description = \"Add your description here\"",
      "readme = \"README.md\"",
      "requires-python = \">=3.11\"",
      "dependencies = []",
      "",
      "[project.optional-dependencies]",
      "dev = [",
      "    \"pytest>=7.0.0\",",
      "    \"ruff>=0.1.0\",",
      "]",
      "",
      "[tool.ruff]",
      "line-length = 88",
      "target-version = \"py311\"" ]
  }

  function Pyproject(name: string): string
  {
    Lines(PyprojectLines(name))
  }

  function HtmlTitle(name: string): string
  {
    "<title>" + name + "</title>"
  }

  function Welcome(name: string): string
  {
    "Welcome to " + name
  }

  /** The lines of `public/index.html`: a page titled with the name that welcomes the visitor to it. */
  function IndexHtmlLines(name: string): seq<string>
  {
    [ "<!DOCTYPE html>",
      "<html lang=\"en\">",
      "<head>",
      "    <meta charset=\"UTF-8\">",
      "    <meta name=\"viewport\" content=\"width=device-width, initial-scale=1.0\">",
      "    " + HtmlTitle(name),
      "    <style>",
      "        body { font-family: Arial, sans-serif; margin: 40px; }",
      "        h1 { color: #333; }",
      "    </style>",
      "</head>",
      "<body>",
      "    <h1>" + Welcome(name) + "</h1>",
      "    <p>Your web project is ready!</p>",
      "</body>",
      "</html>" ]
  }

  function IndexHtml(name: string): string
  {
    Lines(IndexHtmlLines(name))
  }

  /** The template dispatch: `python` and `web` are recognised, every other string is basic. */
  function SelectTemplate(template: string): (k: Template)
    ensures k == Python <==> template == "python"
    ensures k == Web <==> template == "web"
    ensures k == Basic <==> template != "python" && template != "web"
  {
    if template == "python" then Python
    else if template == "web" then Web
    else Basic
  }

  /**
   Entries a template writes inside the target after the common files: each
   path once, none of them the target, the README or the `.gitignore`, and
   each nested path inside a directory the template created before it.
   */
  predicate TemplateShape(layout: seq<Entry>)
  {
    && DistinctPaths(layout)
    && (forall i | 0 <= i < |layout| ::
          layout[i].path != [] && layout[i].path != ["README.md"] && layout[i].path != [".gitignore"])
    && (forall i | 0 <= i < |layout| ::
          |layout[i].path| == 1
          || exists j | 0 <= j < i :: layout[j].path == Parent(layout[i].path) && layout[j].node == Dir)
  }

  /** `_create_basic_project`, relative to the target. */
  function BasicLayout(name: string): (l: seq<Entry>)
    ensures TemplateShape(l)
  {
    var l := [ Entry(["src"], Dir),
               Entry(["docs"], Dir),
               Entry(["tests"], Dir),
               Entry(["src", "main.py"], File(MainPy(name))) ];
    assert Parent(l[3].path) == l[0].path;
    l
  }

  /** `_create_python_project`: the basic layout, then the manifest. */
  function PythonLayout(name: string): (l: seq<Entry>)
    ensures TemplateShape(l)
    ensures |l| > 0 && l[..|l| - 1] == BasicLayout(name)
  {
    var b := BasicLayout(name);
    var e := Entry(["pyproject.toml"], File(Pyproject(name)));
    assert b[0].path == ["src"] && b[1].path == ["docs"] && b[2].path == ["tests"];
    assert b[3].path == ["src", "main.py"];
    AppendTopLevel(b, e);
    var l := b + [e];
    assert l[..|l| - 1] == b;
    l
  }

  /** A template-shaped layout stays so with one more top-level entry at a new path. */
  lemma AppendTopLevel(b: seq<Entry>, e: Entry)
    requires TemplateShape(b)
    requires |e.path| == 1 && e.path != ["README.md"] && e.path != [".gitignore"]
    requires forall i | 0 <= i < |b| :: b[i].path != e.path
    ensures TemplateShape(b + [e])
  {
    var l := b + [e];
    assert forall i | 0 <= i < |b| :: l[i] == b[i];
    forall i | 0 <= i < |l| && |l[i].path| != 1
      ensures exists j | 0 <= j < i :: l[j].path == Parent(l[i].path) && l[j].node == Dir
    {
      var j :| 0 <= j < i && b[j].path == Parent(b[i].path) && b[j].node == Dir;
      assert l[j] == b[j];
    }
  }

  /** `_create_web_project`, relative to the target. */
  function WebLayout(name: string): (l: seq<Entry>)
    ensures TemplateShape(l)
  {
    var l := [ Entry(["src"], Dir),
               Entry(["public"], Dir),
               Entry(["assets"], Dir),
               Entry(["public", "index.html"], File(IndexHtml(name))) ];
    assert Parent(l[3].path) == l[1].path;
    l
  }

  /** The layout of the selected template. */
  function TemplateLayout(k: Template, name: string): (l: seq<Entry>)
    ensures TemplateShape(l)
  {
    match k
    case Basic => BasicLayout(name)
    case Python => PythonLayout(name)
    case Web => WebLayout(name)
  }

  /** What every run writes first: the target directory, the README and the `.gitignore`. */
  function CommonLayout(name: string): seq<Entry>
  {
    [ Entry([], Dir),
      Entry(["README.md"], File(Readme(name))),
      Entry([".gitignore"], File(Gitignore)) ]
  }

  /** The whole layout of `init project`, relative to the target, in the order the source writes it. */
  function ProjectLayout(name: string, template: string): seq<Entry>
  {
    CommonLayout(name) + TemplateLayout(SelectTemplate(template), name)
  }

  /** A layout relative to `root`, as absolute entries. */
  function Place(root: Path, layout: seq<Entry>): (es: seq<Entry>)
    ensures |es| == |layout|
    ensures forall i | 0 <= i < |layout| :: es[i] == Entry(root + layout[i].path, layout[i].node)
    ensures forall i | 0 <= i < |es| :: root <= es[i].path
  {
    assert forall i | 0 <= i < |layout| :: (root + layout[i].path)[..|root|] == root;
    seq(|layout|, i requires 0 <= i < |layout| => Entry(root + layout[i].path, layout[i].node))
  }

  /**
   A layout the generic writer can always lay down on a fresh target: it
   starts with the target itself, names every path once, and creates the
   parent of each later entry before it.
   */
  predicate LayoutShape(layout: seq<Entry>)
  {
    && |layout| > 0
    && layout[0] == Entry([], Dir)
    && DistinctPaths(layout)
    && forall i | 1 <= i < |layout| ::
         && layout[i].path != []
         && exists j | 0 <= j < i :: layout[j].path == Parent(layout[i].path) && layout[j].node == Dir
  }

  /** The name used: the `--name` option, or the prompt's answer when the option is missing or empty. */
  function ProjectName(name: string, prompted: string): (n: string)
    ensures name != "" ==> n == name
    ensures name == "" ==> n == prompted
  {
    if name == "" then prompted else name
  }

  /**
   `Path.cwd() / name`, as the operating system resolves it. A plain name is
   one new component below the working directory.
   */
  function Target(cwd: Path, name: string, prompted: string): (p: Path)
    ensures Resolved(cwd) ==> Resolved(p)
    ensures var n := ProjectName(name, prompted);
            '/' !in n && n != "" && n != "." && n != ".." ==> p == cwd + [n]
  {
    var n := ProjectName(name, prompted);
    if '/' !in n && n != "" && n != "." && n != ".." then
      PlainNameJoin(cwd, n);
      Join(cwd, n)
    else
      Join(cwd, n)
  }

  /** The entries the command writes, as absolute paths: every one lies inside the target. */
  function Plan(cwd: Path, name: string, prompted: string, template: string): (es: seq<Entry>)
    ensures |es| == |ProjectLayout(ProjectName(name, prompted), template)|
    ensures forall i | 0 <= i < |es| :: Target(cwd, name, prompted) <= es[i].path
  {
    Place(Target(cwd, name, prompted), ProjectLayout(ProjectName(name, prompted), template))
  }

  /** The user is asked only when the target exists and `--force` is off; declining cancels. */
  predicate Cancelled(t: Tree, root: Path, force: bool, confirmed: bool)
  {
    Exists(t, root) && !force && !confirmed
  }

  /**
   `init project`. `prompted` is the answer to the name prompt and
   `confirmed` the answer to the overwrite question; each is used only when
   the source asks. A primitive that raises stops the command with status 1.
   */
  function Project(t: Tree, cwd: Path, name: string, prompted: string, template: string,
                   force: bool, confirmed: bool): (r: InitResult)
    ensures Cancelled(t, Target(cwd, name, prompted), force, confirmed) ==> r == InitResult(t, ExitError)
    ensures r.exit == ExitOk || r.exit == ExitError
    ensures Frame(t, r.tree, Paths(Plan(cwd, name, prompted, template)))
  {
    var root := Target(cwd, name, prompted);
    if Cancelled(t, root, force, confirmed) then InitResult(t, ExitError)
    else
      var o := Materialize(t, Plan(cwd, name, prompted, template));
      InitResult(o.tree, if o.ok then ExitOk else ExitError)
  }

  lemma CommonPaths(name: string)
    ensures CommonShape(CommonLayout(name))
  {
  }

  /** Entries with the paths of the common files: the target, then `README.md`, then `.gitignore`. */
  predicate CommonShape(c: seq<Entry>)
  {
    |c| == 3 && c[0] == Entry([], Dir) && c[1].path == ["README.md"] && c[2].path == [".gitignore"]
  }

  /** The common files and a template-shaped layout name each path once between them. */
  lemma CommonThenTemplateDistinct(c: seq<Entry>, x: seq<Entry>)
    requires CommonShape(c) && TemplateShape(x)
    ensures DistinctPaths(c + x)
  {
    var l := c + x;
    forall i, j | 0 <= i < j < |l|
      ensures l[i].path != l[j].path
    {
      if j < 3 {
        assert l[i] == c[i] && l[j] == c[j];
        if i == 1 {
          assert c[1].path[0][0] != c[2].path[0][0];
        }
      } else if i < 3 {
        assert l[i] == c[i] && l[j] == x[j - 3];
        assert x[j - 3].path != c[i].path;
      } else {
        assert l[i] == x[i - 3] && l[j] == x[j - 3];
        assert x[i - 3].path != x[j - 3].path;
      }
    }
  }

  /** Where the directory holding a later entry of the common files plus a template is created. */
  lemma ParentEntryIndex(c: seq<Entry>, x: seq<Entry>, i: nat) returns (k: nat)
    requires CommonShape(c) && TemplateShape(x) && 1 <= i < |c + x|
    ensures (c + x)[i].path != []
    ensures k < i && (c + x)[k].path == Parent((c + x)[i].path) && (c + x)[k].node == Dir
  {
    var l := c + x;
    assert l[0] == c[0] == Entry([], Dir);
    if i < 3 {
      assert l[i] == c[i];
      assert |c[i].path| == 1;
      k := 0;
    } else {
      var e := x[i - 3];
      assert l[i] == e;
      assert e.path != [];
      if |e.path| == 1 {
        assert Parent(e.path) == [];
        k := 0;
      } else {
        assert exists j | 0 <= j < i - 3 :: x[j].path == Parent(e.path) && x[j].node == Dir;
        var j :| 0 <= j < i - 3 && x[j].path == Parent(e.path) && x[j].node == Dir;
        assert l[j + 3] == x[j];
        k := j + 3;
      }
    }
  }

  /** Any template-shaped layout written after the common files has the shape the writer needs. */
  lemma CommonThenTemplateShape(c: seq<Entry>, x: seq<Entry>)
    requires CommonShape(c) && TemplateShape(x)
    ensures LayoutShape(c + x)
  {
    var l := c + x;
    forall i | 1 <= i < |l|
      ensures l[i].path != []
      ensures exists j | 0 <= j < i :: l[j].path == Parent(l[i].path) && l[j].node == Dir
    {
      var k := ParentEntryIndex(c, x, i);
    }
    assert l[0] == c[0];
    CommonThenTemplateDistinct(c, x);
  }

  /** Every template's layout has the shape the writer needs. */
  lemma ProjectLayoutShape(name: string, template: string)
    ensures LayoutShape(ProjectLayout(name, template))
  {
    CommonPaths(name);
    CommonThenTemplateShape(CommonLayout(name), TemplateLayout(SelectTemplate(template), name));
  }

  lemma PlaceKeepsDistinct(root: Path, layout: seq<Entry>)
    requires DistinctPaths(layout)
    ensures DistinctPaths(Place(root, layout))
  {
    var es := Place(root, layout);
    forall i, j | 0 <= i < j < |es|
      ensures es[i].path != es[j].path
    {
      assert es[i].path[|root|..] == layout[i].path;
      assert es[j].path[|root|..] == layout[j].path;
    }
  }

  lemma ParentOfPlaced(root: Path, p: Path)
    requires p != []
    ensures Parent(root + p) == root + Parent(p)
  {
    assert (root + p)[..|root + p| - 1] == root + p[..|p| - 1];
  }

  /** A shaped layout placed where the target's parent is a directory is feasible unless something clashes. */
  lemma ShapedPlanFeasible(t: Tree, root: Path, layout: seq<Entry>)
    requires LayoutShape(layout)
    requires root == [] || IsDir(t, Parent(root))
    requires forall i | 0 <= i < |layout| :: !Clash(t, Place(root, layout)[i])
    ensures Feasible(t, Place(root, layout))
  {
    var es := Place(root, layout);
    forall i | 1 <= i < |es|
      ensures ParentReady(t, es, i)
    {
      var j :| 0 <= j < i && layout[j].path == Parent(layout[i].path) && layout[j].node == Dir;
      ParentOfPlaced(root, layout[i].path);
      assert es[j].path == Parent(es[i].path);
    }
    assert es[0].path == root;
  }

  /** Below a missing target nothing exists, so no entry of a placed layout can clash. */
  lemma FreshTargetNoClash(t: Tree, root: Path, layout: seq<Entry>)
    requires WellFormed(t) && root != [] && root !in t
    ensures forall i | 0 <= i < |layout| :: !Clash(t, Place(root, layout)[i])
  {
    forall i | 0 <= i < |layout|
      ensures Place(root, layout)[i].path !in t
    {
      var p := root + layout[i].path;
      assert p[..|root|] == root;
      if p in t {
        AncestorExists(t, p, |root|);
      }
    }
  }

  /** On a real tree the command completes iff it is not cancelled and every step of its plan can succeed. */
  lemma ProjectOkIff(t: Tree, cwd: Path, name: string, prompted: string, template: string,
                     force: bool, confirmed: bool)
    requires WellFormed(t)
    ensures Project(t, cwd, name, prompted, template, force, confirmed).exit == ExitOk
            <==> !Cancelled(t, Target(cwd, name, prompted), force, confirmed)
                 && Feasible(t, Plan(cwd, name, prompted, template))
  {
    var n := ProjectName(name, prompted);
    ProjectLayoutShape(n, template);
    PlaceKeepsDistinct(Target(cwd, name, prompted), ProjectLayout(n, template));
    MaterializeOkIff(t, Plan(cwd, name, prompted, template));
  }

  /** A completed run leaves every entry of the plan in place. */
  lemma ProjectPlanHolds(t: Tree, cwd: Path, name: string, prompted: string, template: string,
                         force: bool, confirmed: bool)
    requires Project(t, cwd, name, prompted, template, force, confirmed).exit == ExitOk
    ensures var r := Project(t, cwd, name, prompted, template, force, confirmed);
            var es := Plan(cwd, name, prompted, template);
            forall i | 0 <= i < |es| :: Holds(r.tree, es[i])
  {
    var n := ProjectName(name, prompted);
    ProjectLayoutShape(n, template);
    PlaceKeepsDistinct(Target(cwd, name, prompted), ProjectLayout(n, template));
    MaterializeHolds(t, Plan(cwd, name, prompted, template));
  }

  /** A shaped layout placed at a missing target: distinct paths, none of them the root, and the run completes. */
  lemma FreshRunOk(t: Tree, root: Path, layout: seq<Entry>)
    requires WellFormed(t) && LayoutShape(layout)
    requires root != [] && root !in t && IsDir(t, Parent(root))
    ensures var es := Place(root, layout);
            && DistinctPaths(es) && Materialize(t, es).ok
            && forall i | 0 <= i < |es| :: es[i].path != []
  {
    var es := Place(root, layout);
    FreshTargetNoClash(t, root, layout);
    ShapedPlanFeasible(t, root, layout);
    PlaceKeepsDistinct(root, layout);
    MaterializeOkIff(t, es);
    forall i | 0 <= i < |es|
      ensures es[i].path != []
    {
      assert |es[i].path| >= |root|;
    }
  }

  /** A shaped layout placed at a missing target inside a directory is written completely, and adds exactly its paths. */
  lemma FreshRunCompletes(t: Tree, root: Path, layout: seq<Entry>)
    requires WellFormed(t) && LayoutShape(layout)
    requires root != [] && root !in t && IsDir(t, Parent(root))
    ensures var es := Place(root, layout);
            && Materialize(t, es).ok
            && (forall i | 0 <= i < |es| :: Holds(Materialize(t, es).tree, es[i]))
            && (forall q :: q in Materialize(t, es).tree <==> q in t || q in Paths(es))
  {
    var es := Place(root, layout);
    FreshRunOk(t, root, layout);
    MaterializeHolds(t, es);
    CompletedRunKeys(t, es);
  }

  /**
   On a fresh target below an existing directory the command always
   completes, whatever the template string, and the new tree is the old one
   plus exactly the template's layout.
   */
  lemma ProjectOnFreshTarget(t: Tree, cwd: Path, name: string, prompted: string, template: string,
                             force: bool, confirmed: bool)
    requires WellFormed(t)
    requires var root := Target(cwd, name, prompted); root != [] && root !in t && IsDir(t, Parent(root))
    ensures var r := Project(t, cwd, name, prompted, template, force, confirmed);
            var es := Plan(cwd, name, prompted, template);
            && r.exit == ExitOk
            && (forall i | 0 <= i < |es| :: Holds(r.tree, es[i]))
            && (forall q :: q in r.tree <==> q in t || q in Paths(es))
  {
    var root := Target(cwd, name, prompted);
    var layout := ProjectLayout(ProjectName(name, prompted), template);
    assert Plan(cwd, name, prompted, template) == Place(root, layout);
    ProjectLayoutShape(ProjectName(name, prompted), template);
    FreshRunCompletes(t, root, layout);
  }

  /**
   An existing target directory is not an error: with `--force` or a
   confirmation, the command completes as long as no entry of the layout meets
   a node of the other kind.
   */
  lemma ExistingDirectoryReused(t: Tree, cwd: Path, name: string, prompted: string, template: string,
                                force: bool, confirmed: bool)
    requires WellFormed(t) && IsDir(t, Target(cwd, name, prompted)) && (force || confirmed)
    requires var es := Plan(cwd, name, prompted, template); forall i | 0 <= i < |es| :: !Clash(t, es[i])
    ensures Project(t, cwd, name, prompted, template, force, confirmed).exit == ExitOk
  {
    var root := Target(cwd, name, prompted);
    var n := ProjectName(name, prompted);
    assert Plan(cwd, name, prompted, template) == Place(root, ProjectLayout(n, template));
    if root != [] {
      assert root in t;
    }
    ProjectLayoutShape(n, template);
    ShapedPlanFeasible(t, root, ProjectLayout(n, template));
    ProjectOkIff(t, cwd, name, prompted, template, force, confirmed);
  }

  /** Every plan starts with the target directory, the README and the `.gitignore`. */
  lemma PlanStartsWithCommon(cwd: Path, name: string, prompted: string, template: string)
    ensures var es := Plan(cwd, name, prompted, template);
            var root := Target(cwd, name, prompted);
            && |es| >= 3
            && es[0] == Entry(root, Dir)
            && es[1] == Entry(root + ["README.md"], File(Readme(ProjectName(name, prompted))))
            && es[2] == Entry(root + [".gitignore"], File(Gitignore))
  {
    var n := ProjectName(name, prompted);
    var root := Target(cwd, name, prompted);
    var c := CommonLayout(n);
    var l := c + TemplateLayout(SelectTemplate(template), n);
    assert Plan(cwd, name, prompted, template) == Place(root, l);
    assert l[0] == c[0] && l[1] == c[1] && l[2] == c[2];
    assert root + [] == root;
  }

  /** Every completed run: the target is a directory, the README names the project, and the `.gitignore` is the fixed text. */
  lemma ProjectWritesCommonFiles(t: Tree, cwd: Path, name: string, prompted: string, template: string,
                                 force: bool, confirmed: bool)
    requires Project(t, cwd, name, prompted, template, force, confirmed).exit == ExitOk
    ensures var r := Project(t, cwd, name, prompted, template, force, confirmed);
            var root := Target(cwd, name, prompted);
            && IsDir(r.tree, root)
            && root + ["README.md"] in r.tree
            && r.tree[root + ["README.md"]] == File("# " + ProjectName(name, prompted) + "\n\nYour new project description here.\n")
            && root + [".gitignore"] in r.tree
            && r.tree[root + [".gitignore"]] == File(Gitignore)
  {
    var es := Plan(cwd, name, prompted, template);
    var tree := Project(t, cwd, name, prompted, template, force, confirmed).tree;
    PlanStartsWithCommon(cwd, name, prompted, template);
    ProjectPlanHolds(t, cwd, name, prompted, template, force, confirmed);
    assert Holds(tree, es[0]);
    assert Holds(tree, es[1]);
    assert Holds(tree, es[2]);
  }

  /** `src/main.py` calls `print` with the greeting. */
  lemma MainPyGreets(n: string)
    ensures Contains(MainPy(n), Greeting(n))
  {
    var line := MainPyLines(n)[3];
    LineInLines(MainPyLines(n), 3);
    ContainsMiddle("    ", Greeting(n), "");
    assert "    " + Greeting(n) + "" == line;
    ContainsTrans(MainPy(n), line, Greeting(n));
  }

  /** `pyproject.toml` declares the project's name. */
  lemma PyprojectDeclaresName(n: string)
    ensures Contains(Pyproject(n), ManifestNameLine(n))
  {
    LineInLines(PyprojectLines(n), 1);
  }

  /** `public/index.html` carries the name in its title and in its welcome heading. */
  lemma IndexHtmlNamesProject(n: string)
    ensures Contains(IndexHtml(n), HtmlTitle(n)) && Contains(IndexHtml(n), Welcome(n))
  {
    var title := IndexHtmlLines(n)[5];
    var heading := IndexHtmlLines(n)[12];
    LineInLines(IndexHtmlLines(n), 5);
    LineInLines(IndexHtmlLines(n), 12);
    ContainsMiddle("    ", HtmlTitle(n), "");
    assert "    " + HtmlTitle(n) + "" == title;
    ContainsMiddle("    <h1>", Welcome(n), "</h1>");
    ContainsTrans(IndexHtml(n), title, HtmlTitle(n));
    ContainsTrans(IndexHtml(n), heading, Welcome(n));
  }

  /** The web plan names none of `src/main.py`, `docs` and `tests`. */
  lemma WebLayoutAvoidsBasicPaths(n: string)
    ensures var l := ProjectLayout(n, "web");
            forall i | 0 <= i < |l| :: l[i].path != ["src", "main.py"] && l[i].path != ["docs"] && l[i].path != ["tests"]
  {
    var c := CommonLayout(n);
    var w := WebLayout(n);
    var l := ProjectLayout(n, "web");
    assert l == c + w;
    CommonPaths(n);
    WebEntries(n);
    forall i | 0 <= i < |l|
      ensures l[i].path != ["src", "main.py"] && l[i].path != ["docs"] && l[i].path != ["tests"]
    {
      if i < 3 {
        assert l[i] == c[i];
      } else {
        assert l[i] == w[i - 3];
      }
    }
  }

  lemma BasicEntries(n: string)
    ensures var l := BasicLayout(n);
            && |l| == 4
            && l[0] == Entry(["src"], Dir) && l[1] == Entry(["docs"], Dir) && l[2] == Entry(["tests"], Dir)
            && l[3] == Entry(["src", "main.py"], File(MainPy(n)))
  {
  }

  lemma PythonEntries(n: string)
    ensures var l := PythonLayout(n);
            && |l| == 5 && l[..4] == BasicLayout(n)
            && l[4] == Entry(["pyproject.toml"], File(Pyproject(n)))
  {
  }

  lemma WebEntries(n: string)
    ensures var l := WebLayout(n);
            && |l| == 4
            && l[0] == Entry(["src"], Dir) && l[1] == Entry(["public"], Dir) && l[2] == Entry(["assets"], Dir)
            && l[3] == Entry(["public", "index.html"], File(IndexHtml(n)))
  {
  }

  lemma WebPlanAvoidsBasicPaths(cwd: Path, name: string, prompted: string)
    ensures var root := Target(cwd, name, prompted);
            var ps := Paths(Plan(cwd, name, prompted, "web"));
            root + ["src", "main.py"] !in ps && root + ["docs"] !in ps && root + ["tests"] !in ps
  {
    var root := Target(cwd, name, prompted);
    var layout := ProjectLayout(ProjectName(name, prompted), "web");
    var es := Plan(cwd, name, prompted, "web");
    assert es == Place(root, layout);
    WebLayoutAvoidsBasicPaths(ProjectName(name, prompted));
    forall i | 0 <= i < |es|
      ensures es[i].path != root + ["src", "main.py"] && es[i].path != root + ["docs"] && es[i].path != root + ["tests"]
    {
      assert es[i].path[|root|..] == layout[i].path;
      assert (root + ["src", "main.py"])[|root|..] == ["src", "main.py"];
      assert (root + ["docs"])[|root|..] == ["docs"];
      assert (root + ["tests"])[|root|..] == ["tests"];
    }
  }

  /** After the three common entries, a plan holds the chosen template's layout. */
  lemma PlanTemplatePart(cwd: Path, name: string, prompted: string, template: string, i: nat)
    requires i < |TemplateLayout(SelectTemplate(template), ProjectName(name, prompted))|
    ensures var es := Plan(cwd, name, prompted, template);
            var rel := TemplateLayout(SelectTemplate(template), ProjectName(name, prompted))[i];
            3 + i < |es| && es[3 + i] == Entry(Target(cwd, name, prompted) + rel.path, rel.node)
  {
    var n := ProjectName(name, prompted);
    var c := CommonLayout(n);
    var x := TemplateLayout(SelectTemplate(template), n);
    assert Plan(cwd, name, prompted, template) == Place(Target(cwd, name, prompted), c + x);
    CommonPaths(n);
    assert (c + x)[3 + i] == x[i];
  }

  /** A completed run with an entry of the chosen template leaves that entry in place. */
  lemma TemplateEntryHolds(t: Tree, cwd: Path, name: string, prompted: string, template: string,
                           force: bool, confirmed: bool, i: nat)
    requires Project(t, cwd, name, prompted, template, force, confirmed).exit == ExitOk
    requires i < |TemplateLayout(SelectTemplate(template), ProjectName(name, prompted))|
    ensures var rel := TemplateLayout(SelectTemplate(template), ProjectName(name, prompted))[i];
            Holds(Project(t, cwd, name, prompted, template, force, confirmed).tree,
                  Entry(Target(cwd, name, prompted) + rel.path, rel.node))
  {
    PlanTemplatePart(cwd, name, prompted, template, i);
    ProjectPlanHolds(t, cwd, name, prompted, template, force, confirmed);
  }

  /**
   The basic layout, chosen for every template string other than `python`
   and `web`: directories `src`, `docs`, `tests` and a `src/main.py` that
   greets the project by name.
   */
  lemma BasicProjectTree(t: Tree, cwd: Path, name: string, prompted: string, template: string,
                         force: bool, confirmed: bool)
    requires template != "python" && template != "web"
    requires Project(t, cwd, name, prompted, template, force, confirmed).exit == ExitOk
    ensures var tree := Project(t, cwd, name, prompted, template, force, confirmed).tree;
            var root := Target(cwd, name, prompted);
            && IsDir(tree, root + ["src"]) && IsDir(tree, root + ["docs"]) && IsDir(tree, root + ["tests"])
            && root + ["src", "main.py"] in tree
            && tree[root + ["src", "main.py"]].File?
            && Contains(tree[root + ["src", "main.py"]].content, "print(\"Hello from " + ProjectName(name, prompted) + "!\")")
  {
    var n := ProjectName(name, prompted);
    assert TemplateLayout(SelectTemplate(template), n) == BasicLayout(n);
    BasicEntries(n);
    TemplateEntryHolds(t, cwd, name, prompted, template, force, confirmed, 0);
    TemplateEntryHolds(t, cwd, name, prompted, template, force, confirmed, 1);
    TemplateEntryHolds(t, cwd, name, prompted, template, force, confirmed, 2);
    TemplateEntryHolds(t, cwd, name, prompted, template, force, confirmed, 3);
    MainPyGreets(n);
  }

  /** The python layout: everything of the basic layout, plus a `pyproject.toml` declaring the name. */
  lemma PythonProjectTree(t: Tree, cwd: Path, name: string, prompted: string,
                          force: bool, confirmed: bool)
    requires Project(t, cwd, name, prompted, "python", force, confirmed).exit == ExitOk
    ensures var tree := Project(t, cwd, name, prompted, "python", force, confirmed).tree;
            var root := Target(cwd, name, prompted);
            && IsDir(tree, root + ["src"]) && IsDir(tree, root + ["docs"]) && IsDir(tree, root + ["tests"])
            && root + ["src", "main.py"] in tree
            && tree[root + ["src", "main.py"]] == File(MainPy(ProjectName(name, prompted)))
            && root + ["pyproject.toml"] in tree
            && tree[root + ["pyproject.toml"]].File?
            && Contains(tree[root + ["pyproject.toml"]].content, "name = \"" + ProjectName(name, prompted) + "\"")
  {
    var n := ProjectName(name, prompted);
    assert TemplateLayout(SelectTemplate("python"), n) == PythonLayout(n);
    PythonEntries(n);
    BasicEntries(n);
    var l := PythonLayout(n);
    assert l[0] == l[..4][0] && l[1] == l[..4][1] && l[2] == l[..4][2] && l[3] == l[..4][3];
    TemplateEntryHolds(t, cwd, name, prompted, "python", force, confirmed, 0);
    TemplateEntryHolds(t, cwd, name, prompted, "python", force, confirmed, 1);
    TemplateEntryHolds(t, cwd, name, prompted, "python", force, confirmed, 2);
    TemplateEntryHolds(t, cwd, name, prompted, "python", force, confirmed, 3);
    TemplateEntryHolds(t, cwd, name, prompted, "python", force, confirmed, 4);
    PyprojectDeclaresName(n);
  }

  /**
   The web layout: directories `src`, `public`, `assets` and a page titled
   with the name. It writes no `src/main.py`, `docs` or `tests`: whatever was
   at those paths is left as it was.
   */
  lemma WebProjectTree(t: Tree, cwd: Path, name: string, prompted: string,
                       force: bool, confirmed: bool)
    requires Project(t, cwd, name, prompted, "web", force, confirmed).exit == ExitOk
    ensures var tree := Project(t, cwd, name, prompted, "web", force, confirmed).tree;
            var root := Target(cwd, name, prompted);
            var n := ProjectName(name, prompted);
            && IsDir(tree, root + ["src"]) && IsDir(tree, root + ["public"]) && IsDir(tree, root + ["assets"])
            && root + ["public", "index.html"] in tree
            && tree[root + ["public", "index.html"]].File?
            && Contains(tree[root + ["public", "index.html"]].content, "<title>" + n + "</title>")
            && Contains(tree[root + ["public", "index.html"]].content, "Welcome to " + n)
            && Agree(t, tree, root + ["src", "main.py"])
            && Agree(t, tree, root + ["docs"])
            && Agree(t, tree, root + ["tests"])
  {
    var n := ProjectName(name, prompted);
    assert TemplateLayout(SelectTemplate("web"), n) == WebLayout(n);
    WebEntries(n);
    TemplateEntryHolds(t, cwd, name, prompted, "web", force, confirmed, 0);
    TemplateEntryHolds(t, cwd, name, prompted, "web", force, confirmed, 1);
    TemplateEntryHolds(t, cwd, name, prompted, "web", force, confirmed, 2);
    TemplateEntryHolds(t, cwd, name, prompted, "web", force, confirmed, 3);
    IndexHtmlNamesProject(n);
    WebPlanAvoidsBasicPaths(cwd, name, prompted);
  }

  /**
   The command never checks the name: `a:b`, which `is_valid_project_name`
   refuses, is initialised like any other name.
   */
  lemma InvalidNameAccepted(t: Tree, cwd: Path, prompted: string, template: string,
                            force: bool, confirmed: bool)
    requires WellFormed(t) && IsDir(t, cwd) && cwd + ["a:b"] !in t
    ensures !Utils.IsValidProjectName("a:b")
    ensures Project(t, cwd, "a:b", prompted, template, force, confirmed).exit == ExitOk
  {
    Utils.InvalidCharRejected("a:b", 1);
    PlainNameJoin(cwd, "a:b");
    ProjectOnFreshTarget(t, cwd, "a:b", prompted, template, force, confirmed);
  }

  lemma NestedComponents()
    ensures Components("a/b") == ["a", "b"]
  {
    assert "a/b"[1..] == "/b" && "/b"[1..] == "b" && "b"[1..] == [];
    assert "" + ['b'] == "b" && "" + ['a'] == "a";
    assert Keep("b") == ["b"] && Keep("a") == ["a"];
    assert SplitFrom([], "b") == ["b"];
    assert SplitFrom("b", "") == SplitFrom([], "b");
    assert SplitFrom("/b", "a") == ["a"] + SplitFrom("b", "");
    assert SplitFrom("a/b", "") == SplitFrom("/b", "a");
  }

  /**
   A name holding `/` names a nested target; the target is created without
   its parents, so a missing intermediate directory fails the first step and
   nothing is written.
   */
  lemma NestedNameWithoutParent(t: Tree, cwd: Path, prompted: string, template: string,
                                force: bool, confirmed: bool)
    requires WellFormed(t) && cwd + ["a"] !in t
    ensures Project(t, cwd, "a/b", prompted, template, force, confirmed) == InitResult(t, ExitError)
  {
    var root := cwd + ["a", "b"];
    NestedComponents();
    assert Target(cwd, "a/b", prompted) == root;
    assert root[..|cwd| + 1] == cwd + ["a"];
    MissingAncestor(t, root, |cwd| + 1);
    assert !Cancelled(t, root, force, confirmed);
    var es := Plan(cwd, "a/b", prompted, template);
    PlanStartsWithCommon(cwd, "a/b", prompted, template);
    assert Parent(root) == cwd + ["a"];
    assert !MakeDir(t, root).ok;
    FirstStepFails(t, es);
  }

  /** When the intermediate directory exists, a name holding `/` creates the nested project. */
  lemma NestedNameWithParent(t: Tree, cwd: Path, prompted: string, template: string,
                             force: bool, confirmed: bool)
    requires WellFormed(t) && IsDir(t, cwd + ["a"]) && cwd + ["a", "b"] !in t
    ensures var r := Project(t, cwd, "a/b", prompted, template, force, confirmed);
            && r.exit == ExitOk
            && cwd + ["a", "b"] + ["README.md"] in r.tree
            && r.tree[cwd + ["a", "b"] + ["README.md"]] == File(Readme("a/b"))
  {
    NestedComponents();
    var root := cwd + ["a", "b"];
    assert Target(cwd, "a/b", prompted) == root;
    assert Parent(root) == cwd + ["a"];
    ProjectOnFreshTarget(t, cwd, "a/b", prompted, template, force, confirmed);
    ProjectWritesCommonFiles(t, cwd, "a/b", prompted, template, force, confirmed);
  }

  /**
   The name `..` targets the parent of the working directory, which exists:
   without `--force` the user is asked, and declining writes nothing.
   */
  lemma ParentNameAsks(t: Tree, cwd: Path, prompted: string, template: string)
    requires WellFormed(t) && IsDir(t, cwd)
    ensures Target(cwd, "..", prompted) == Parent(cwd)
    ensures Project(t, cwd, "..", prompted, template, false, false) == InitResult(t, ExitError)
  {
    ParentNameJoin(cwd);
    if cwd != [] {
      assert cwd in t;
      assert IsDir(t, Parent(cwd));
    }
  }

  lemma SiblingComponents()
    ensures Components("../sib") == ["..", "sib"]
  {
    assert "../sib"[1..] == "./sib" && "./sib"[1..] == "/sib" && "/sib"[1..] == "sib";
    assert "" + ['.'] == "." && "." + ['.'] == "..";
    assert Keep("..") == [".."] && Keep("sib") == ["sib"];
    SplitWithoutSlash("sib", "");
    assert "" + "sib" == "sib";
    assert SplitFrom("/sib", "..") == [".."] + SplitFrom("sib", "");
    assert SplitFrom("../sib", "") == SplitFrom("/sib", "..");
  }

  /** The name `../sib` targets a sibling of the working directory. */
  lemma SiblingNameTarget(cwd: Path, prompted: string)
    ensures Target(cwd, "../sib", prompted) == Parent(cwd) + ["sib"]
  {
    SiblingComponents();
  }
}

=== FILE: utils.dfy ===
/**
 Model of `is_valid_project_name` (t3/core/utils.py) together with the part of
 Python's `str.strip()` it relies on. Characters are Unicode code points, as
 Python's `len` counts them.
 */
module Utils {

  /** The characters `is_valid_project_name` refuses. */
  const InvalidChars: set<char> := {'/', '<', '>', ':', '"', '|', '?', '*', '\\'}

  /** The longest name accepted. */
  const MaxNameLength := 255

  /** Python's `str.isspace()`, the set `str.strip()` removes with no argument. */
  predicate IsSpace(c: char)
  {
    || ('\t' <= c <= '\r')
    || ('\U{1C}' <= c <= ' ')
    || c == '\U{85}' || c == '\U{A0}' || c == '\U{1680}'
    || ('\U{2000}' <= c <= '\U{200A}')
    || c == '\U{2028}' || c == '\U{2029}' || c == '\U{202F}' || c == '\U{205F}' || c == '\U{3000}'
  }

  /** Every character of `s` is whitespace (vacuously so for the empty string). */
  predicate AllSpace(s: string)
  {
    forall i | 0 <= i < |s| :: IsSpace(s[i])
  }

  /** `s` with leading whitespace removed: the longest suffix that does not start with whitespace. */
  function StripLeading(s: string): (r: string)
    ensures |r| <= |s| && r == s[|s| - |r|..]
    ensures forall i | 0 <= i < |s| - |r| :: IsSpace(s[i])
    ensures r != [] ==> !IsSpace(r[0])
    decreases |s|
  {
    if s != [] && IsSpace(s[0]) then StripLeading(s[1..]) else s
  }

  /** `s` with trailing whitespace removed: the longest prefix that does not end with whitespace. */
  function StripTrailing(s: string): (r: string)
    ensures |r| <= |s| && r == s[..|r|]
    ensures forall i | |r| <= i < |s| :: IsSpace(s[i])
    ensures r != [] ==> !IsSpace(r[|r| - 1])
    decreases |s|
  {
    if s != [] && IsSpace(s[|s| - 1]) then StripTrailing(s[..|s| - 1]) else s
  }

  /** Python's `s.strip()`. */
  function Strip(s: string): string
  {
    StripTrailing(StripLeading(s))
  }

  /** `strip()` leaves nothing exactly when the string is all whitespace. */
  lemma StripEmptyIffAllSpace(s: string)
    ensures |Strip(s)| == 0 <==> AllSpace(s)
  {
    var l := StripLeading(s);
    if !AllSpace(s) {
      var i :| 0 <= i < |s| && !IsSpace(s[i]);
      assert l[i - (|s| - |l|)] == s[i];
    }
  }

  /** A name passes the check when it is not blank, has no invalid character and is short enough. */
  predicate ValidName(name: string)
  {
    && (exists i | 0 <= i < |name| :: !IsSpace(name[i]))
    && (forall i | 0 <= i < |name| :: name[i] !in InvalidChars)
    && |name| <= MaxNameLength
  }

  /** `is_valid_project_name`, with its three checks in the source's order. */
  function IsValidProjectName(name: string): (ok: bool)
    ensures ok <==> ValidName(name)
  {
    StripEmptyIffAllSpace(name);
    if name == [] || |Strip(name)| == 0 then false
    else if exists i | 0 <= i < |name| :: name[i] in InvalidChars then false
    else if |name| > MaxNameLength then false
    else true
  }

  /** The empty string is not a name. */
  lemma EmptyNameInvalid()
    ensures !IsValidProjectName("")
  {
  }

  /** A name made only of whitespace is not a name. */
  lemma BlankNameInvalid(name: string)
    requires AllSpace(name)
    ensures !IsValidProjectName(name)
  {
  }

  /** One invalid character anywhere makes the name invalid. */
  lemma InvalidCharRejected(name: string, i: nat)
    requires i < |name| && name[i] in InvalidChars
    ensures !IsValidProjectName(name)
  {
  }

  /** A name longer than 255 characters is invalid. */
  lemma TooLongNameInvalid(name: string)
    requires |name| > MaxNameLength
    ensures !IsValidProjectName(name)
  {
  }

  /** A name of exactly 255 ordinary characters is valid. */
  lemma LongestNameValid()
    ensures IsValidProjectName(seq(MaxNameLength, _ => 'a'))
  {
    var name := seq(MaxNameLength, _ => 'a');
    assert !IsSpace(name[0]);
  }

  /** Whitespace around other text is allowed: padding a valid name with spaces keeps it valid. */
  lemma PaddedNameValid(core: string)
    requires ValidName(core) && |core| + 2 <= MaxNameLength
    ensures IsValidProjectName(" " + core + " ")
  {
    var name := " " + core + " ";
    var i :| 0 <= i < |core| && !IsSpace(core[i]);
    assert name[i + 1] == core[i];
    forall j | 0 <= j < |name|
      ensures name[j] !in InvalidChars
    {
      if 0 < j < |name| - 1 {
        assert name[j] == core[j - 1];
      }
    }
  }
}

=== FILE: wrappers.dfy ===
/** Small shared datatypes. */
module Wrappers {

  /** A value that may be missing, as Python's `None` default. */
  datatype Option<+T> = None | Some(value: T)

  /** The result of an operation that either returns a value or raises an I/O error. */
  datatype Outcome<+T> = Ok(value: T) | IoError
}
